=== FILE: README.md ===
# dhcpv6pd reconciliation core, in Dafny

This project models the core of the DHCPv6 prefix-delegation daemon. A DHCP client tells the daemon that a *source* interface has been delegated an IPv6 prefix, or that the delegation is gone. The configuration names, for each source, the *target* interfaces that should get an address from that prefix. The daemon then:

- derives the per-target policies from the configuration tree (`transformConfigToDesiredState`, `stripKey`, `getIfaceKey`);
- keeps a registry of the prefix each source currently holds (`HandlePrefixAssigned`, `HandlePrefixRemoved`);
- joins the two into a desired-state snapshot with a `config` slot and a `known-prefixes` slot;
- projects each snapshot to the addresses it asks for (`getAddresses`, `calculateAddress`, `calculateEUI64`);
- diffs the previous projection against the new one (`getIPBatchCommandsFromAction`, `getIPBatchRemove`, `getIPBatchAdd`);
- hands the deletions, then the additions, to `ip -force -batch` (`updateKernel`, `runIPBatch`).

The lease replay at startup de-duplicates the prefixes it reads from each lease file before re-announcing them.

Modules, one per concern:

- `Types` (types.dfy): `Option`, octets, and `IndexOf`, which models the first-separator search of `strings.SplitN`.
- `ConfigTree` (config.dfy): the typed configuration tree. It covers `StripKey`, `GetIfaceKey` and the transform to the source → target → policy map.
- `Address` (address.dfy): EUI-64 synthesis at octet and bit level, and `CalculateAddress`.
  - `net.ParseCIDR` and `net.InterfaceByName` are parameters, bundled in `Env`.
  - A network is `Net(ip, ones)`, meaning the address octets and the mask length.
- `Registry` (registry.dfy): the prefix registry, the two-slot snapshot, and the lease replay's effect on the registry.
- `Reconcile` (reconcile.dfy): the projection, the diff, batch-line rendering and parsing, and `UpdateKernel`. It also holds the kernel-level view used by the finding below.
- `Leases` (leases.dfy): the de-duplication loop of `readLeaseFile`, the replay of its survivors into the registry, and a last-occurrence de-duplication under which the replay ends on the latest lease.
- `Daemon` (daemon.dfy): the reactive cells (config atom, prefix agent, aggregator, updater) run as one sequential state machine. It states what the kernel holds after any sequence of events.
- `Scenarios` (scenarios.dfy): worked examples on concrete prefixes, MACs and trees.

Three behaviours of the code worth knowing:

- **No universal/local bit flip.** Modified EUI-64 (Appendix A of RFC 4291) complements the universal/local bit of the MAC's first octet. `calculateEUI64` (dhcpv6pd.go:374-379) copies the MAC unmodified around `FF FE` (`Address.NoUniversalLocalFlip`).
- **No MAC still gives an address.** `getMACAddress` returns nil when the interface lookup fails (dhcpv6pd.go:363-370). `calculateEUI64` still builds an identifier from it, `FF FE 00 00 00 00 00 00` (`Address.InterfaceId`, empty case).
- **Bytes 6-7 are masked.** The subnet id's octets are merged with the network's own octets under the prefix mask, as `calculateEUI64` does.

## Model

| member | source | states |
|---|---|---|
| ConfigTree.StripKey | dhcpv6pd.go:328-336 | a key without ':' comes back unchanged; otherwise the result is everything after the FIRST ':' (later colons are kept) |
| ConfigTree.StripKeyQualified | dhcpv6pd.go:328-336 | a module-qualified leaf name `module:leaf` whose module has no ':' loses exactly its module prefix |
| ConfigTree.GetIfaceKey | dhcpv6pd.go:319-326 | a list key is found iff the interface type is the dataplane type, and that key is "tagnode" |
| ConfigTree.AssocAllLastWins | dhcpv6pd.go:304-311 | when a key repeats in the tree, the map keeps the value of its LAST occurrence, as successive Assoc calls do |
| ConfigTree.UnknownTypeDropped | dhcpv6pd.go:288-293 | inserting an interface type other than the dataplane type anywhere in the tree leaves the derived map unchanged |
| ConfigTree.InterfacePairsSound | dhcpv6pd.go:288-313 | every pair the transform emits is keyed by the list key of some dataplane interface |
| ConfigTree.InterfacePairsComplete | dhcpv6pd.go:294-313 | every dataplane interface contributes its (list key, target policies) pair |
| ConfigTree.TransformConfigSources | dhcpv6pd.go:285-317 | `TransformConfig` (transformConfigToDesiredState): a source appears in the derived map iff some dataplane interface in the tree carries it as list key |
| Address.MaskByteBit | dhcpv6pd.go:384-387 | octet i of the prefix mask has bit p set iff position 8i+p lies within the prefix length |
| Address.MergeBit | dhcpv6pd.go:384-387 | each bit of a merged octet is the network's bit where the mask is set and the subnet id's bit elsewhere |
| Address.InterfaceId | dhcpv6pd.go:374-379 | the identifier is 8 octets: the MAC's first half, then FF FE at the midpoint; a 6-octet MAC gives mac[0..3] FF FE mac[3..6]; an absent MAC gives FF FE followed by zeros |
| Address.InterfaceIdTail | dhcpv6pd.go:379 | after the marker, octet k is MAC octet k-2 when the MAC is that long and 0 otherwise (the copy truncates at 8 octets) |
| Address.InterfaceIdRoundTrip | dhcpv6pd.go:374-379 | for a 6-octet MAC the MAC can be read back from the identifier, so distinct MACs give distinct identifiers |
| Address.NoUniversalLocalFlip | dhcpv6pd.go:374-379 | the universal/local bit of the first octet is copied, not complemented |
| Address.CalculateEUI64 | dhcpv6pd.go:373-393 | the result is a 16-octet /64. Octets 0-5 are the network's. Octets 6-7 take, bit by bit, the network's bits inside the prefix length and the subnet id's bits beyond it, so a /64 keeps both network octets and a /48 or shorter takes both subnet-id octets. Octets 8-15 are the interface identifier |
| Address.Truncate16 | dhcpv6pd.go:357 | the 16-bit subnet id is the low half of the configured uint32; the high half is discarded |
| Address.CalculateAddress | dhcpv6pd.go:338-361 | no address iff the prefix does not parse, the policy's address-type is not "eui64", or the prefix is longer than /64; an address is the EUI-64 address of the parsed network, the sla-id truncated to 16 bits and the target's MAC, so a /64 with the network's first 6 octets and the target MAC's identifier |
| Registry.Assign | dhcpv6pd.go:52-58 | the interface now maps to the new prefix, replacing any earlier one; every other interface keeps its prefix |
| Registry.Remove | dhcpv6pd.go:60-65 | the interface loses its prefix and no other entry changes; removing an absent interface changes nothing |
| Registry.AssignOverwrites | dhcpv6pd.go:52-58 | a second assignment to the same interface supersedes the first |
| Registry.RemoveIdempotent | dhcpv6pd.go:60-65 | removal is idempotent, and undoes an assignment to an interface that held nothing |
| Registry.DistinctInterfacesCommute | dhcpv6pd.go:52-65 | assignments and removals on different interfaces commute |
| Registry.ReplayKeepsLast | cmd/dhcpv6pd/main.go:74-82 | replaying a list of prefixes for one interface leaves the registry with the last prefix EMITTED for it, and nothing else changed |
| Registry.WithConfig | dhcpv6pd.go:135-139 | a configuration publication fills the config slot and leaves the known-prefixes slot as it was |
| Registry.WithPrefixes | dhcpv6pd.go:140-142 | a registry publication fills the known-prefixes slot and leaves the config slot as it was |
| Reconcile.GetAddresses | dhcpv6pd.go:185-196 | an empty projection while no prefix is known; no projection (nil) iff prefixes are known but the config slot is absent; with both slots filled, the projection of that configuration and those prefixes |
| Reconcile.Addresses | dhcpv6pd.go:197-238 | the projection's sources are the configured sources that hold a prefix; a target is present iff its address calculation succeeds, and then carries that address |
| Reconcile.UnsupportedPolicyNeverAddressed | dhcpv6pd.go:215-221 | a target whose policy does not select eui64 is never given an address, whatever the prefix |
| Reconcile.PrefixRemovalDropsSource | dhcpv6pd.go:197-238 | withdrawing a source's prefix removes exactly that source from the projection |
| Reconcile.PrefixAssignTouchesOnlySource | dhcpv6pd.go:197-238 | assigning a prefix to a source changes the projection at that source only |
| Reconcile.DiffIsDifference | dhcpv6pd.go:245-276 | `DiffEntries`, the three-branch diff (source missing, target missing, address differs) emits exactly the triples of the first projection absent from the second |
| Reconcile.RemoveEntries | dhcpv6pd.go:277-279 | the delete lines are the triples the old snapshot asks for and the new one does not |
| Reconcile.AddEntries | dhcpv6pd.go:281-283 | the add lines are the triples the new snapshot asks for and the old one does not |
| Reconcile.AddIsSwappedRemove | dhcpv6pd.go:277-283 | the add batch is the remove batch with the snapshots swapped |
| Reconcile.Step | dhcpv6pd.go:156-174 | deletions come only from the old projection and never hit the new one; additions come only from the new projection and never repeat the old one; applying both to the old projection yields the new one; the updater moves to the new snapshot |
| Reconcile.StepIdempotent | dhcpv6pd.go:156-174 | reconciling a snapshot against itself deletes and adds nothing |
| Reconcile.BatchCommandRoundTrip | dhcpv6pd.go:241-243 | a line rendered by `GetIPBatchCommand` parses back to its action, address and device when action and address are single words |
| Reconcile.RenderRoundTrip | dhcpv6pd.go:255-271 | the line written for a typed command (its action's name, the prefix's text, its target) parses back to exactly those three |
| Reconcile.RenderInjective | dhcpv6pd.go:255-271 | two commands that render to the same line have the same action, address text and device |
| Reconcile.Linearize | dhcpv6pd.go:250-274 | the unordered traversal lists every triple of the set exactly once |
| Reconcile.Batch | dhcpv6pd.go:245-276 | one line per listed triple, in order, each carrying the batch's action, the triple's address and its target as device |
| Reconcile.RunIPBatch | dhcpv6pd.go:176-183 | an empty batch is not submitted; a non-empty one is submitted once |
| Reconcile.SubmitBatches | dhcpv6pd.go:159-171 | each batch lists its set's triples exactly once; at most two batches are submitted, neither empty, the delete batch before the add batch; nothing is submitted iff both sets are empty |
| Reconcile.UpdateKernel | dhcpv6pd.go:156-174 | the delete batch enumerates exactly the triples to remove and the add batch exactly those to add; only non-empty batches are submitted, deletions before additions; the result is the new snapshot whatever the executor reports |
| Reconcile.Execute | dhcpv6pd.go:180-182 | the kernel after `ip -force -batch` lacks every binding named by a delete line and by no add line, holds every binding named by an add line, and keeps every other binding it held |
| Reconcile.ExecuteAsWritten | dhcpv6pd.go:156-183 | starting from the old snapshot's bindings, the two batches leave the new snapshot's bindings minus those named by a delete line and by no add line |
| Reconcile.ExecuteSound | dhcpv6pd.go:156-183 | if the kernel holds no binding beyond the old snapshot's, after the two batches it holds none beyond the new snapshot's |
| Reconcile.ExecuteExact | dhcpv6pd.go:156-183 | if no departing triple shares its device and address with a remaining one, the two batches leave exactly the new snapshot's bindings |
| Reconcile.SharedAddressWithdrawn | dhcpv6pd.go:245-276 | as written: take two triples from different sources with the same address on one target, and let one of them leave. Executing the delete set (old minus new) and then the add set (new minus old) drops the binding the remaining triple still asks for |
| Reconcile.KernelStep | dhcpv6pd.go:156-174 | corrected: diffing device/address bindings deletes only bindings the new snapshot no longer asks for and adds only missing ones, so the kernel converges to exactly the new snapshot's bindings |
| Reconcile.KernelStepKeepsShared | dhcpv6pd.go:156-174 | the corrected step never deletes a binding any triple of the new snapshot asks for |
| Leases.UniquePrefixes | cmd/dhcpv6pd/main.go:107-117 | the loop returns the reference de-duplication: no prefix twice, the same set of prefixes as its input, and a duplicate-free input unchanged |
| Leases.UniqueElements | cmd/dhcpv6pd/main.go:107-117 | a prefix survives de-duplication iff it occurs in the input |
| Leases.UniqueNoDuplicates | cmd/dhcpv6pd/main.go:107-117 | the result has no duplicates and is no longer than the input |
| Leases.UniqueOfDistinct | cmd/dhcpv6pd/main.go:107-117 | an input without duplicates comes back unchanged |
| Leases.UniqueFirstOccurrenceOrder | cmd/dhcpv6pd/main.go:107-117 | kept prefixes appear in the order of their first occurrence in the input |
| Leases.ReplayLease | cmd/dhcpv6pd/main.go:74-117 | replaying a lease file leaves the interface on the last element of its de-duplicated prefixes: a prefix of the file whose first occurrence comes no earlier than any other prefix's first occurrence; no other interface changes |
| Leases.ReplayRevisitedPrefix | cmd/dhcpv6pd/main.go:74-117 | a file listing A, B, A de-duplicates to A, B and leaves the interface on B, not on the file's last lease A |
| Leases.UniqueLatestProperties | cmd/dhcpv6pd/main.go:107-117 | corrected: de-duplication keeping last occurrences loses nothing, repeats nothing, and emits the input's last prefix last |
| Leases.ReplayLatest | cmd/dhcpv6pd/main.go:74-82 | corrected: replaying the last-occurrence de-duplication leaves the interface on the file's last prefix |
| Daemon.Start | dhcpv6pd.go:27-42 | startup publishes the initial configuration with no prefixes known, reaches the invariant, and installs nothing |
| Daemon.Apply | dhcpv6pd.go:149-154 | the updater catches up with the new snapshot. With the updater as written, the kernel holds only bindings the snapshot asks for, and from an exact kernel it holds the new bindings minus those deleted and not re-added; with the corrected updater it holds exactly the snapshot's bindings |
| Daemon.Handle | dhcpv6pd.go:52-65 | each event keeps the invariant of the chosen updater. A configuration replaces the tree and only the config slot. A prefix event changes the registry as Assign or Remove and only the known-prefixes slot |
| Daemon.HandleExact | dhcpv6pd.go:52-65 | from an exact kernel, an event that withdraws no binding still wanted under another source leaves exactly the wanted bindings, with either updater |
| Daemon.Run | dhcpv6pd.go:133-154 | after any sequence of events the kernel holds no binding the current configuration and registry do not ask for; with the corrected updater it holds exactly those they ask for |
| Scenarios.EmptyMacAddress | dhcpv6pd.go:373-393 | on 2001:db8::/64 with sla-id 0, a target without a hardware address gets 2001:db8::fffe:0:0:0/64 |
| Scenarios.Slash64Address | dhcpv6pd.go:373-393 | 2001:db8::/64 with sla-id 0 and MAC 02:00:00:00:00:01 gives 2001:db8::200:ff:fe00:1/64 |
| Scenarios.Slash56Address | dhcpv6pd.go:384-387 | under a /56 octet 6 stays the network's and octet 7 takes the subnet id |
| Scenarios.SubnetAddress1 | dhcpv6pd.go:338-361 | 2001:db8:1::/56 with sla-id 1 gives 2001:db8:1:1:200:ff:fe00:1/64 |
| Scenarios.ExampleTransform | dhcpv6pd.go:285-317 | a tree with a bridge and a dataplane eth0 delegating to eth1 derives exactly eth0 → eth1 → {address-type: eui64, sla-id: 0} |
| Scenarios.PureAddition | dhcpv6pd.go:281-283 | a first delegation adds one address and deletes nothing |
| Scenarios.PureRemoval | dhcpv6pd.go:277-279 | withdrawing it deletes exactly that address and adds nothing |
| Scenarios.Reassignment | dhcpv6pd.go:245-283 | a new prefix for the source deletes the old address and adds the new one |
| Scenarios.EndToEnd | dhcpv6pd.go:52-58 | from startup, with either updater, one prefix-assigned event for eth0 leaves exactly 2001:db8::200:ff:fe00:1/64 on eth1 |
| Scenarios.SharedPrefixWithdrawal | dhcpv6pd.go:245-276 | eth0 and eth2 share a prefix into eth1; after eth0's is withdrawn the batches as written delete Addr1 from eth1 although eth2 still asks for it, while the corrected step keeps it |

## Left out

- Logging, `exec` of the `ip` binary and its exit status: the executor is the `RunIPBatch` record plus the `Execute` effect. The error returned by `runIPBatch` is ignored by the source, and the model ignores it too.
- Partial failure inside `ip -force -batch`: `Execute` assumes each line either applies or is a harmless no-op (re-adding a present address, deleting an absent one).
- `net.ParseCIDR`, `IPNet.String` and `net.InterfaceByName` are library code. They are the `Env` parameters. Rendered addresses are compared as parsed values, which assumes `String` is injective on IPv6 /64 networks.
- Panics are preconditions, not modelled outcomes. `SafeToCalculate` states them: an IPv4 network on the eui64 path, a hardware address longer than 13 octets, and an eui64 policy without a uint32 sla-id. `Daemon.SafeEnv` and `SafeConfig` show they cannot arise when parsed prefixes are IPv6 and MACs fit.
- The `data.Tree` RFC 7951 encoding is replaced by a typed tree. The target entry's `name` is carried as `TargetEntry.name`. When the tree's leaves include the `name` leaf, `PolicyOf` stores it in the policy exactly as the source does.
- The `template` address type and any other type: these yield no address, as in the source's switch, but are not modelled separately.
- `Config.Set/Get/Check`, `State.Get`, `EmitPrefixAssigned`, `EmitPrefixRemoved`, the cached config writer, the lease directory scan and its regular expressions, and the notification subscription plumbing in `cmd/dhcpv6pd/main.go`. These are I/O or RPC glue and compute nothing the model's properties depend on.
- Concurrency of the atom, agent and watch callbacks: `Daemon` processes each event to completion before the next. Interleavings in which the updater sees an intermediate snapshot are not modelled.
- Reconcile.UpdateKernel: the hashmap `Range` order is unspecified. The loop in `Linearize` picks any order, and the contract states only that each triple appears exactly once.
- Daemon.Run: with the updater as written, the kernel is proved to hold only wanted bindings, not all of them. A withdrawal that shares a binding with a remaining source loses that binding (`Reconcile.SharedAddressWithdrawn`); `Daemon.HandleExact` gives equality for every other event. The whole run also uses one `Env`, so one hardware-address lookup. The source re-derives the OLD snapshot's addresses with a fresh `net.InterfaceByName` on every step (dhcpv6pd.go:247, 215-216, 358, 364). When a target's MAC changes between steps, both projections use the new MAC. The address built from the old MAC is then never deleted, which breaks "no binding beyond the wanted ones". When the target does not exist at first, the add line for the empty-MAC address (`…:fffe:0:0:0`, `Scenarios.EmptyMacAddress`) fails. Once the interface appears, the old and new projections both derive the real address, so it is never added. The model does not cover either case.
- Daemon.Start: assumes the kernel holds no delegated address when the daemon starts. After a restart, the addresses installed by the previous run are still there. The source's updater starts from an empty map (dhcpv6pd.go:150), so it never deletes them; the model does not track them.

## Findings

| source | as written | input that shows it | evidently intended | confidence | as-written member | corrected member |
|---|---|---|---|---|---|---|
| dhcpv6pd.go:245-283 | the diff compares (source, target, address) triples, but each batch line names only (address, device), so deleting a departed triple's line removes a binding another source still asks for | eth0 and eth2 both hold 2001:db8:1::/56, both delegate to eth1 with sla-id 1, then eth0's prefix is removed: `address del 2001:db8:1:1:200:ff:fe00:1/64 dev eth1` runs and no add line follows | after the two batches the kernel holds exactly the addresses the new snapshot asks for (the same loss occurs when one source holds a /48 and another a /64 inside it that yields the same address) | medium; not executed | Reconcile.SharedAddressWithdrawn | Reconcile.KernelStep |
| cmd/dhcpv6pd/main.go:74-117 | the replay de-duplicates a lease file keeping FIRST occurrences and emits the survivors in order, so the interface ends on the prefix whose first occurrence is latest | a lease file for eth0 listing 2001:db8:a::/56, 2001:db8:b::/56, 2001:db8:a::/56 (oldest first) replays to 2001:db8:b::/56 | the interface ends on the file's latest lease, 2001:db8:a::/56 | low (depends on lease files listing leases oldest first); not executed | Leases.ReplayRevisitedPrefix | Leases.ReplayLatest |

=== FILE: address.dfy ===
/** Address synthesis: the /64 host address a target interface derives from
    a delegated prefix, its subnet (SLA) id and its hardware address. */
module Address {
  import opened Types
  import opened ConfigTree

  /** A parsed network, as net.ParseCIDR returns it: the network address
      (4 octets for IPv4, 16 for IPv6) and the number of leading one bits of
      its canonical mask. */
  datatype Net = Net(ip: seq<Byte>, ones: nat)

  /** The collaborators the synthesis cannot see, fixed as functions:
      the prefix text parser (None when the text does not parse) and the
      interface hardware-address lookup (the empty sequence when the
      interface is unknown, as getMACAddress returns nil). */
  datatype Env = Env(parseCidr: string -> Option<Net>, hardwareAddr: string -> seq<Byte>)

  /** calculateEUI64 writes the marker at index len(mac)/2 + 1 of an
      8-octet buffer, so longer hardware addresses make it panic. */
  const MaxMacLen := 13

  /** The octet whose `k` most significant bits are ones. */
  function LeadingOnes(k: nat): Byte
    requires k <= 8
  {
    if k == 0 then 0x00 else if k == 1 then 0x80 else if k == 2 then 0xC0
    else if k == 3 then 0xE0 else if k == 4 then 0xF0 else if k == 5 then 0xF8
    else if k == 6 then 0xFC else if k == 7 then 0xFE else 0xFF
  }

  /** Octet `i` of the 128-bit mask with `ones` leading one bits
      (net.CIDRMask(ones, 128)[i]). */
  function MaskByte(ones: nat, i: nat): Byte
  {
    LeadingOnes(if ones <= 8 * i then 0 else if ones >= 8 * i + 8 then 8 else ones - 8 * i)
  }

  /** The octet with only bit `p` set, bits counted from the most significant. */
  function BitAt(p: nat): Byte
    requires p < 8
  {
    if p == 0 then 0x80 else if p == 1 then 0x40 else if p == 2 then 0x20 else if p == 3 then 0x10
    else if p == 4 then 0x08 else if p == 5 then 0x04 else if p == 6 then 0x02 else 0x01
  }

  /** Bit `p` of an octet, counted from the most significant bit. */
  predicate ByteBit(b: Byte, p: nat)
    requires p < 8
  {
    b & BitAt(p) != 0
  }

  /** The mask has a one at bit position 8*i+p exactly when that position
      lies within the first `ones` bits. */
  lemma MaskByteBit(ones: nat, i: nat, p: nat)
    requires p < 8
    ensures ByteBit(MaskByte(ones, i), p) <==> 8 * i + p < ones
  {
    var k := if ones <= 8 * i then 0 else if ones >= 8 * i + 8 then 8 else ones - 8 * i;
    assert 8 * i + p < ones <==> p < k;
  }

  /** The octet calculateEUI64 writes at index 6 or 7: bits of `net` where
      the mask has ones, bits of `sla` elsewhere. */
  function Merge(sla: Byte, mask: Byte, net: Byte): Byte
  {
    (sla & !mask) | (mask & net)
  }

  lemma MergeBit(sla: Byte, mask: Byte, net: Byte, p: nat)
    requires p < 8
    ensures ByteBit(Merge(sla, mask, net), p) == if ByteBit(mask, p) then ByteBit(net, p) else ByteBit(sla, p)
  {
    var c := BitAt(p);
    assert c == 0x80 || c == 0x40 || c == 0x20 || c == 0x10 || c == 0x08 || c == 0x04 || c == 0x02 || c == 0x01;
  }

  /** The 64-bit interface identifier calculateEUI64 builds from a hardware
      address: the address split at its midpoint with FF FE inserted, no
      universal/local bit complemented, truncated or zero-filled to 8 octets. */
  function InterfaceId(mac: seq<Byte>): (id: seq<Byte>)
    requires |mac| <= MaxMacLen
    ensures |id| == 8
    ensures id[..|mac| / 2] == mac[..|mac| / 2]
    ensures id[|mac| / 2] == 0xFF && id[|mac| / 2 + 1] == 0xFE
    ensures |mac| == 6 ==> id == mac[..3] + [0xFF, 0xFE] + mac[3..]
    ensures |mac| == 0 ==> id == [0xFF, 0xFE, 0, 0, 0, 0, 0, 0]
  {
    var mid := |mac| / 2;
    var room := 8 - (mid + 2);
    var tail := if |mac| - mid <= room then mac[mid..] else mac[mid..mid + room];
    mac[..mid] + [0xFF, 0xFE] + tail + Zeros(room - |tail|)
  }

  /** After the marker the buffer holds the rest of the hardware address,
      cut off at octet 8 or padded with zeros: octet k comes from MAC octet
      k - 2. */
  lemma InterfaceIdTail(mac: seq<Byte>, k: nat)
    requires |mac| <= MaxMacLen && |mac| / 2 + 2 <= k < 8
    ensures InterfaceId(mac)[k] == if k - 2 < |mac| then mac[k - 2] else 0
  {
    var mid := |mac| / 2;
    var room := 8 - (mid + 2);
    var tail := if |mac| - mid <= room then mac[mid..] else mac[mid..mid + room];
    assert InterfaceId(mac) == mac[..mid] + [0xFF, 0xFE] + tail + Zeros(room - |tail|);
  }

  /** The hardware address a 6-octet-derived interface identifier came from. */
  function MacOfInterfaceId(id: seq<Byte>): (mac: seq<Byte>)
    requires |id| == 8
    ensures |mac| == 6
  {
    id[..3] + id[5..]
  }

  /** For 6-octet hardware addresses the identifier is invertible, so two
      interfaces with distinct MACs never derive the same address. */
  lemma InterfaceIdRoundTrip(mac: seq<Byte>)
    requires |mac| == 6
    ensures MacOfInterfaceId(InterfaceId(mac)) == mac
  {
    var id := InterfaceId(mac);
    assert id[..3] == mac[..3];
    assert id[5..] == mac[3..];
    assert mac == mac[..3] + mac[3..];
  }

  /** The universal/local bit (bit 6 of the first octet) is copied, not
      complemented, whenever the MAC has at least two octets. */
  lemma NoUniversalLocalFlip(mac: seq<Byte>)
    requires 2 <= |mac| <= MaxMacLen
    ensures InterfaceId(mac)[0] & 0x02 == mac[0] & 0x02
  {
    var id := InterfaceId(mac);
    assert id[..|mac| / 2][0] == mac[..|mac| / 2][0];
  }

  /** The two octets of the subnet id, most significant first. */
  function SlaByte(sla: bv16, j: nat): Byte
    requires j < 2
  {
    if j == 0 then (sla >> 8) as Byte else (sla & 0xFF) as Byte
  }

  /** calculateEUI64 for an IPv6 network: octets 0-5 from the network,
      octets 6-7 merged from the network and the subnet id under the mask,
      octets 8-15 the interface identifier, mask length 64. */
  function CalculateEUI64(prefix: Net, sla: bv16, mac: seq<Byte>): (r: Net)
    requires |prefix.ip| == 16
    requires |mac| <= MaxMacLen
    ensures |r.ip| == 16 && r.ones == 64
    ensures r.ip[..6] == prefix.ip[..6]
    ensures r.ip[8..] == InterfaceId(mac)
    ensures forall p :: 0 <= p < 8 ==>
      ByteBit(r.ip[6], p) == if 48 + p < prefix.ones then ByteBit(prefix.ip[6], p) else ByteBit(SlaByte(sla, 0), p)
    ensures forall p :: 0 <= p < 8 ==>
      ByteBit(r.ip[7], p) == if 56 + p < prefix.ones then ByteBit(prefix.ip[7], p) else ByteBit(SlaByte(sla, 1), p)
    ensures prefix.ones >= 64 ==> r.ip[6..8] == prefix.ip[6..8]
    ensures prefix.ones <= 48 ==> r.ip[6..8] == [SlaByte(sla, 0), SlaByte(sla, 1)]
  {
    var b6 := Merge(SlaByte(sla, 0), MaskByte(prefix.ones, 6), prefix.ip[6]);
    var b7 := Merge(SlaByte(sla, 1), MaskByte(prefix.ones, 7), prefix.ip[7]);
    forall p | 0 <= p < 8
      ensures ByteBit(b6, p) == if 48 + p < prefix.ones then ByteBit(prefix.ip[6], p) else ByteBit(SlaByte(sla, 0), p)
      ensures ByteBit(b7, p) == if 56 + p < prefix.ones then ByteBit(prefix.ip[7], p) else ByteBit(SlaByte(sla, 1), p)
    {
      MaskByteBit(prefix.ones, 6, p);
      MergeBit(SlaByte(sla, 0), MaskByte(prefix.ones, 6), prefix.ip[6], p);
      MaskByteBit(prefix.ones, 7, p);
      MergeBit(SlaByte(sla, 1), MaskByte(prefix.ones, 7), prefix.ip[7], p);
    }
    var ip := prefix.ip[..6] + [b6, b7] + InterfaceId(mac);
    assert ip[6] == b6 && ip[7] == b7;
    Net(ip, 64)
  }

  /** sla-id is a uint32 converted to uint16: only its low 16 bits count,
      the high half of the id is dropped. */
  function Truncate16(n: bv32): (r: bv16)
    ensures (r as bv32) | (n & 0xFFFF_0000) == n
  {
    (n & 0xFFFF) as bv16
  }

  /** The target policy selects EUI-64 derivation. */
  predicate Eui64Selected(policy: Policy)
  {
    "address-type" in policy && policy["address-type"] == Str("eui64")
  }

  /** The conditions under which calculateAddress returns without a panic:
      on the EUI-64 path the network is IPv6, sla-id is a uint32 and the
      hardware address fits the 8-octet buffer. */
  predicate SafeToCalculate(env: Env, target: string, policy: Policy, prefix: string)
  {
    match env.parseCidr(prefix)
    case None => true
    case Some(n) =>
      Eui64Selected(policy) && n.ones <= 64 ==>
        && "sla-id" in policy && policy["sla-id"].Uint32?
        && |n.ip| == 16
        && |env.hardwareAddr(target)| <= MaxMacLen
  }

  /** calculateAddress: the address `target` derives from `prefix` under
      `policy`, or None ("") when no address can be derived. */
  function CalculateAddress(env: Env, target: string, policy: Policy, prefix: string): (r: Option<Net>)
    requires SafeToCalculate(env, target, policy, prefix)
    ensures r.None? <==> || env.parseCidr(prefix).None?
                         || !Eui64Selected(policy)
                         || env.parseCidr(prefix).value.ones > 64
    ensures r.Some? ==>
      && |r.value.ip| == 16 && r.value.ones == 64
      && r.value.ip[..6] == env.parseCidr(prefix).value.ip[..6]
      && r.value.ip[8..] == InterfaceId(env.hardwareAddr(target))
    ensures r.Some? ==>
      r.value == CalculateEUI64(env.parseCidr(prefix).value, Truncate16(policy["sla-id"].n), env.hardwareAddr(target))
  {
    match env.parseCidr(prefix)
    case None => None
    case Some(n) =>
      if !Eui64Selected(policy) then None
      else if n.ones > 64 then None
      else Some(CalculateEUI64(n, Truncate16(policy["sla-id"].n), env.hardwareAddr(target)))
  }
}

=== FILE: config.dfy ===
/** The configuration side of the daemon: a typed stand-in for the YANG
    configuration tree, and its derivation into the map
    source interface -> target interface -> policy that the reconciler reads. */
module ConfigTree {
  import opened Types

  /** A leaf value of a target-interface entry, as `ToNative` yields it. */
  datatype Leaf = Str(s: string) | Uint32(n: bv32)

  /** One entry of the `dhcpv6pd/target-interface` list of an interface:
      its `name` key and its leaves, keyed as they appear in the tree
      (possibly module-qualified, e.g. "vyatta-dhcpv6pd-v1:sla-id"). */
  datatype TargetEntry = TargetEntry(name: string, leaves: seq<(string, Leaf)>)

  /** One interface list entry: the value of its list key and its targets. */
  datatype Interface = Interface(key: string, targets: seq<TargetEntry>)

  /** One member of the `interfaces` container: an interface type
      (e.g. "vyatta-interfaces-dataplane-v1:dataplane") and its list. */
  datatype IfaceType = IfaceType(typeName: string, ifaces: seq<Interface>)

  /** The `/vyatta-interfaces-v1:interfaces` container, in document order. */
  datatype Tree = Tree(types: seq<IfaceType>)

  /** A target policy: stripped leaf name -> leaf value. */
  type Policy = map<string, Leaf>

  /** The derived configuration: source interface -> target interface -> policy. */
  type ConfigMap = map<string, map<string, Policy>>

  const DataplaneType := "vyatta-interfaces-dataplane-v1:dataplane"
  const DataplaneKey := "tagnode"

  /** Drops a module qualifier: the text after the first ':', or the whole
      key when it has none (strings.SplitN(key, ":", 2)). */
  function StripKey(k: string): (r: string)
    ensures ':' !in k ==> r == k
    ensures ':' in k ==> exists i :: 0 <= i < |k| && k[i] == ':' && ':' !in k[..i] && r == k[i + 1..]
  {
    match IndexOf(k, ':')
    case None => k
    case Some(i) => k[i + 1..]
  }

  /** Stripping undoes qualification by any module name free of ':'. */
  lemma StripKeyQualified(m: string, k: string)
    requires ':' !in m
    ensures StripKey(m + ":" + k) == k
  {
    IndexOfSeparator(m, ':', k);
    assert m + ":" + k == m + [':'] + k;
    assert (m + ":" + k)[|m| + 1..] == k;
  }

  /** The list key of an interface type; only the dataplane type is known. */
  function GetIfaceKey(typeName: string): (r: Option<string>)
    ensures r.Some? <==> typeName == DataplaneType
    ensures r.Some? ==> r.value == DataplaneKey
  {
    if typeName == DataplaneType then Some(DataplaneKey) else None
  }

  /** The map built by associating the pairs of `ps` in order into an empty
      map (Go's `Assoc` in a `Range` loop): later pairs overwrite earlier ones. */
  function AssocAll<K, V>(ps: seq<(K, V)>): (m: map<K, V>)
    ensures forall i :: 0 <= i < |ps| ==> ps[i].0 in m
    ensures |ps| > 0 ==> m[ps[|ps| - 1].0] == ps[|ps| - 1].1
  {
    if |ps| == 0 then map[]
    else AssocAll(ps[..|ps| - 1])[ps[|ps| - 1].0 := ps[|ps| - 1].1]
  }

  /** Every key of the folded map comes from some pair, and its value is that
      of the LAST pair carrying the key. */
  lemma {:induction false} AssocAllLastWins<K, V>(ps: seq<(K, V)>, k: K)
    requires k in AssocAll(ps)
    ensures exists i :: 0 <= i < |ps| && ps[i] == (k, AssocAll(ps)[k])
                        && forall j :: i < j < |ps| ==> ps[j].0 != k
  {
    var n := |ps|;
    if ps[n - 1].0 == k {
      assert ps[n - 1] == (k, AssocAll(ps)[k]);
    } else {
      var init := ps[..n - 1];
      AssocAllLastWins(init, k);
      var i :| 0 <= i < |init| && init[i] == (k, AssocAll(init)[k])
               && forall j :: i < j < |init| ==> init[j].0 != k;
      assert ps[i] == init[i];
      forall j | i < j < n ensures ps[j].0 != k {
        if j < n - 1 { assert ps[j] == init[j]; }
      }
    }
  }

  /** The policy of one target entry: every leaf under its stripped name. */
  function PolicyOf(leaves: seq<(string, Leaf)>): Policy
  {
    AssocAll(seq(|leaves|, i requires 0 <= i < |leaves| => (StripKey(leaves[i].0), leaves[i].1)))
  }

  /** The target map of one interface: target name -> policy. */
  function TargetsOf(targets: seq<TargetEntry>): map<string, Policy>
  {
    AssocAll(seq(|targets|, i requires 0 <= i < |targets| => (targets[i].name, PolicyOf(targets[i].leaves))))
  }

  /** The (interface key, targets) pairs of one interface list. */
  function ListPairs(ifaces: seq<Interface>): (ps: seq<(string, map<string, Policy>)>)
    ensures |ps| == |ifaces|
    ensures forall j :: 0 <= j < |ifaces| ==> ps[j] == (ifaces[j].key, TargetsOf(ifaces[j].targets))
  {
    seq(|ifaces|, j requires 0 <= j < |ifaces| => (ifaces[j].key, TargetsOf(ifaces[j].targets)))
  }

  /** The pairs the transform associates, in document order: those of every
      interface list whose type has a known list key; other types are skipped. */
  function InterfacePairs(types: seq<IfaceType>): seq<(string, map<string, Policy>)>
  {
    if |types| == 0 then []
    else
      var last := types[|types| - 1];
      InterfacePairs(types[..|types| - 1])
        + (if GetIfaceKey(last.typeName).Some? then ListPairs(last.ifaces) else [])
  }

  /** transformConfigToDesiredState: the derived map of a configuration tree. */
  function TransformConfig(t: Tree): ConfigMap
  {
    AssocAll(InterfacePairs(t.types))
  }

  lemma {:induction false} InterfacePairsAppend(a: seq<IfaceType>, b: seq<IfaceType>)
    ensures InterfacePairs(a + b) == InterfacePairs(a) + InterfacePairs(b)
    decreases |b|
  {
    if |b| == 0 {
      assert a + b == a;
    } else {
      var b' := b[..|b| - 1];
      assert (a + b)[..|a + b| - 1] == a + b';
      InterfacePairsAppend(a, b');
    }
  }

  /** An interface type other than the dataplane type contributes nothing:
      removing it from the tree leaves the derived map unchanged. */
  lemma UnknownTypeDropped(before: seq<IfaceType>, other: IfaceType, after: seq<IfaceType>)
    requires other.typeName != DataplaneType
    ensures TransformConfig(Tree(before + [other] + after)) == TransformConfig(Tree(before + after))
  {
    InterfacePairsAppend(before + [other], after);
    InterfacePairsAppend(before, [other]);
    InterfacePairsAppend(before, after);
    assert [other][..0] == [];
    assert InterfacePairs([other]) == [];
    assert InterfacePairs(before + [other] + after) == InterfacePairs(before + after);
  }

  /** Whether some dataplane-typed list in `types` has an interface keyed `k`. */
  predicate DataplaneKeyed(types: seq<IfaceType>, k: string)
  {
    exists i, j :: 0 <= i < |types| && types[i].typeName == DataplaneType
                   && 0 <= j < |types[i].ifaces| && types[i].ifaces[j].key == k
  }

  /** Every pair the transform associates comes from a dataplane interface. */
  lemma {:induction false} InterfacePairsSound(types: seq<IfaceType>, p: (string, map<string, Policy>))
    requires p in InterfacePairs(types)
    ensures DataplaneKeyed(types, p.0)
  {
    var n := |types|;
    var init := types[..n - 1];
    var last := types[n - 1];
    var tail := if GetIfaceKey(last.typeName).Some? then ListPairs(last.ifaces) else [];
    assert InterfacePairs(types) == InterfacePairs(init) + tail;
    if p in InterfacePairs(init) {
      InterfacePairsSound(init, p);
      var i, j :| 0 <= i < |init| && init[i].typeName == DataplaneType
                  && 0 <= j < |init[i].ifaces| && init[i].ifaces[j].key == p.0;
      assert types[i] == init[i];
    } else {
      var j :| 0 <= j < |tail| && tail[j] == p;
      assert types[n - 1].ifaces[j].key == p.0;
    }
  }

  /** Every dataplane interface contributes its pair. */
  lemma {:induction false} InterfacePairsComplete(types: seq<IfaceType>, i: nat, j: nat)
    requires i < |types| && types[i].typeName == DataplaneType && j < |types[i].ifaces|
    ensures (types[i].ifaces[j].key, TargetsOf(types[i].ifaces[j].targets)) in InterfacePairs(types)
  {
    var n := |types|;
    var init := types[..n - 1];
    var last := types[n - 1];
    var tail := if GetIfaceKey(last.typeName).Some? then ListPairs(last.ifaces) else [];
    assert InterfacePairs(types) == InterfacePairs(init) + tail;
    if i < n - 1 {
      assert init[i] == types[i];
      InterfacePairsComplete(init, i, j);
    } else {
      assert tail[j] == (types[i].ifaces[j].key, TargetsOf(types[i].ifaces[j].targets));
    }
  }

  /** The derived map's sources are exactly the list keys of the dataplane
      interfaces; interfaces of every other type are dropped. */
  lemma TransformConfigSources(t: Tree, k: string)
    ensures k in TransformConfig(t) <==> DataplaneKeyed(t.types, k)
  {
    var ps := InterfacePairs(t.types);
    if k in TransformConfig(t) {
      AssocAllLastWins(ps, k);
      var i :| 0 <= i < |ps| && ps[i] == (k, TransformConfig(t)[k]);
      InterfacePairsSound(t.types, ps[i]);
    }
    if DataplaneKeyed(t.types, k) {
      var i, j :| 0 <= i < |t.types| && t.types[i].typeName == DataplaneType
                  && 0 <= j < |t.types[i].ifaces| && t.types[i].ifaces[j].key == k;
      InterfacePairsComplete(t.types, i, j);
      var n :| 0 <= n < |ps| && ps[n].0 == k;
    }
  }
}

=== FILE: daemon.dfy ===
/** The daemon's reactive cells as one sequential state machine: each event
    updates its input (config atom or prefix agent), the aggregator
    republishes the composite, and the updater reconciles against the
    previously applied snapshot. */
module Daemon {
  import opened Types
  import opened ConfigTree
  import opened Address
  import opened Registry
  import opened Reconcile

  /** Configuration replacements and the two subscribed notifications. */
  datatype Event =
    | ConfigSet(tree: Tree)
    | PrefixAssigned(iface: string, prefix: string)
    | PrefixRemoved(iface: string, prefix: string)

  /** The config atom, the known-prefixes agent, the aggregator's snapshot,
      the updater's last applied snapshot, and the device/address bindings
      the kernel holds. */
  datatype State = State(tree: Tree, prefixes: PrefixMap, desired: Snapshot, applied: Snapshot, installed: set<Binding>)

  /** The collaborators never make a synthesis panic: every parsed prefix is
      IPv6 (prefix delegation hands out IPv6 prefixes only) and every
      hardware address fits the EUI-64 buffer. */
  ghost predicate SafeEnv(env: Env)
  {
    && (forall s :: env.parseCidr(s).Some? ==> |env.parseCidr(s).value.ip| == 16)
    && (forall t :: |env.hardwareAddr(t)| <= MaxMacLen)
  }

  /** Every EUI-64 target policy carries a uint32 sla-id. */
  predicate SafeConfig(c: ConfigMap)
  {
    forall src, tgt :: src in c && tgt in c[src] && Eui64Selected(c[src][tgt]) ==>
      "sla-id" in c[src][tgt] && c[src][tgt]["sla-id"].Uint32?
  }

  lemma SafeInputs(env: Env, c: ConfigMap, p: PrefixMap)
    requires SafeEnv(env) && SafeConfig(c)
    ensures SafeSnapshot(env, Snapshot(Some(c), Some(p)))
    ensures SafeSnapshot(env, Snapshot(Some(c), None))
  {
  }

  /** Which updater drives the kernel: the source's, which diffs triples
      (Reconcile.Step), or the corrected one, which diffs bindings
      (Reconcile.KernelStep). */
  datatype Updater = AsWritten | Corrected

  /** What holds after every event: the snapshot mirrors the inputs, the
      config slot is filled, and the updater has caught up. The kernel holds
      no binding the snapshot does not ask for; under the corrected updater
      it holds every one it asks for. */
  ghost predicate Invariant(env: Env, upd: Updater, st: State)
  {
    && st.desired.config == Some(TransformConfig(st.tree))
    && SafeConfig(TransformConfig(st.tree))
    && (st.desired.knownPrefixes.Some? ==> st.desired.knownPrefixes.value == st.prefixes)
    && (st.desired.knownPrefixes.None? ==> st.prefixes == map[])
    && Reconcilable(env, st.desired)
    && st.applied == st.desired
    && st.installed <= Bindings(Wanted(env, st.desired))
    && (upd.Corrected? ==> st.installed == Bindings(Wanted(env, st.desired)))
  }

  /** The updater consumes a new snapshot and the kernel executes the
      batches it computes. */
  function Apply(env: Env, upd: Updater, st: State, desired: Snapshot): (r: State)
    requires Reconcilable(env, st.applied) && Reconcilable(env, desired)
    requires st.installed <= Bindings(Wanted(env, st.applied))
    requires upd.Corrected? ==> st.installed == Bindings(Wanted(env, st.applied))
    ensures r.applied == r.desired == desired
    ensures r.tree == st.tree && r.prefixes == st.prefixes
    ensures r.installed <= Bindings(Wanted(env, desired))
    ensures upd.Corrected? ==> r.installed == Bindings(Wanted(env, desired))
    ensures upd.AsWritten? && st.installed == Bindings(Wanted(env, st.applied)) ==>
      var w1, w2 := Wanted(env, st.applied), Wanted(env, desired);
      r.installed == Bindings(w2) - (Bindings(w1 - w2) - Bindings(w2 - w1))
  {
    var w1, w2 := Wanted(env, st.applied), Wanted(env, desired);
    var installed :=
      if upd.AsWritten? then
        var step := Step(env, st.applied, desired);
        ExecuteSound(st.installed, w1, w2);
        ExecuteAsWritten(w1, w2);
        Execute(st.installed, step.removeOps, step.addOps)
      else
        var step := KernelStep(env, st.applied, desired);
        (st.installed - step.removeOps) + step.addOps;
    st.(desired := desired, applied := desired, installed := installed)
  }

  /** New: the atom is reset to the initial tree, so the aggregator's first
      snapshot carries the config and no prefixes. */
  function Start(env: Env, upd: Updater, initial: Tree): (st: State)
    requires SafeEnv(env) && SafeConfig(TransformConfig(initial))
    ensures Invariant(env, upd, st)
    ensures st.installed == {} == Bindings(Wanted(env, st.desired))
  {
    var empty := State(initial, map[], EmptySnapshot, EmptySnapshot, {});
    SafeInputs(env, TransformConfig(initial), map[]);
    Apply(env, upd, empty, WithConfig(EmptySnapshot, TransformConfig(initial)))
  }

  predicate SafeEvent(ev: Event)
  {
    ev.ConfigSet? ==> SafeConfig(TransformConfig(ev.tree))
  }

  /** One event, processed to completion. A config replacement touches only
      the config slot, a prefix event only the registry and its slot. */
  function Handle(env: Env, upd: Updater, st: State, ev: Event): (r: State)
    requires SafeEnv(env) && Invariant(env, upd, st) && SafeEvent(ev)
    ensures Invariant(env, upd, r)
    ensures ev.ConfigSet? ==> r.tree == ev.tree && r.prefixes == st.prefixes
    ensures ev.ConfigSet? ==> r.desired.knownPrefixes == st.desired.knownPrefixes
    ensures ev.PrefixAssigned? ==> r.tree == st.tree && r.prefixes == Assign(st.prefixes, ev.iface, ev.prefix)
    ensures ev.PrefixRemoved? ==> r.tree == st.tree && r.prefixes == Remove(st.prefixes, ev.iface)
    ensures !ev.ConfigSet? ==> r.desired.config == st.desired.config
  {
    var next :=
      if ev.ConfigSet? then st.(tree := ev.tree)
      else if ev.PrefixAssigned? then st.(prefixes := Assign(st.prefixes, ev.iface, ev.prefix))
      else st.(prefixes := Remove(st.prefixes, ev.iface));
    var d :=
      if ev.ConfigSet? then WithConfig(st.desired, TransformConfig(ev.tree))
      else WithPrefixes(st.desired, next.prefixes);
    SafeInputs(env, TransformConfig(next.tree), next.prefixes);
    Apply(env, upd, next, d)
  }

  /** Under either updater an event leaves the kernel exact when it was
      exact before and no departing triple shares its binding with a
      remaining one; the source's updater can lose only such shared
      bindings (Reconcile.ExecuteAsWritten). */
  lemma HandleExact(env: Env, upd: Updater, st: State, ev: Event)
    requires SafeEnv(env) && Invariant(env, upd, st) && SafeEvent(ev)
    requires st.installed == Bindings(Wanted(env, st.desired))
    requires NoSharedWithdrawal(Wanted(env, st.desired), Wanted(env, Handle(env, upd, st, ev).desired))
    ensures Handle(env, upd, st, ev).installed == Bindings(Wanted(env, Handle(env, upd, st, ev).desired))
  {
    var r := Handle(env, upd, st, ev);
    ExecuteExact(Wanted(env, st.desired), Wanted(env, r.desired));
  }

  /** Processes events in submission order. After any sequence of events the
      kernel holds no binding the current inputs do not ask for, and under
      the corrected updater exactly the bindings they ask for. */
  function Run(env: Env, upd: Updater, st: State, events: seq<Event>): (r: State)
    requires SafeEnv(env) && Invariant(env, upd, st)
    requires forall k :: 0 <= k < |events| ==> SafeEvent(events[k])
    ensures Invariant(env, upd, r)
    ensures r.installed <= Bindings(Wanted(env, Snapshot(Some(TransformConfig(r.tree)), r.desired.knownPrefixes)))
    ensures upd.Corrected? ==>
      r.installed == Bindings(Wanted(env, Snapshot(Some(TransformConfig(r.tree)), r.desired.knownPrefixes)))
    decreases |events|
  {
    if |events| == 0 then st
    else Run(env, upd, Handle(env, upd, st, events[0]), events[1..])
  }
}

=== FILE: leases.dfy ===
/** The de-duplication of the prefixes scraped from a lease file
    (readLeaseFile), whose survivors are replayed as prefix-assigned events
    at startup. */
module Leases {
  import opened Types
  import opened Registry

  predicate NoDuplicates(xs: seq<string>)
  {
    forall i, j :: 0 <= i < j < |xs| ==> xs[i] != xs[j]
  }

  /** Reference definition: keep an element only if it did not occur before. */
  function Unique(xs: seq<string>): seq<string>
  {
    if |xs| == 0 then []
    else
      var init := xs[..|xs| - 1];
      if xs[|xs| - 1] in init then Unique(init) else Unique(init) + [xs[|xs| - 1]]
  }

  /** Nothing is lost and nothing is invented. */
  lemma {:induction false} UniqueElements(xs: seq<string>, x: string)
    ensures x in Unique(xs) <==> x in xs
  {
    if |xs| > 0 {
      var init := xs[..|xs| - 1];
      UniqueElements(init, x);
      assert xs == init + [xs[|xs| - 1]];
    }
  }

  /** The filtered list never repeats a prefix and is no longer than its input. */
  lemma {:induction false} UniqueNoDuplicates(xs: seq<string>)
    ensures NoDuplicates(Unique(xs))
    ensures |Unique(xs)| <= |xs|
  {
    if |xs| > 0 {
      var init := xs[..|xs| - 1];
      var last := xs[|xs| - 1];
      UniqueNoDuplicates(init);
      if last !in init {
        UniqueElements(init, last);
      }
    }
  }

  /** A list without repetitions passes through unchanged. */
  lemma {:induction false} UniqueOfDistinct(xs: seq<string>)
    requires NoDuplicates(xs)
    ensures Unique(xs) == xs
  {
    if |xs| > 0 {
      var init := xs[..|xs| - 1];
      assert NoDuplicates(init);
      UniqueOfDistinct(init);
      assert xs[|xs| - 1] !in init by {
        forall i | 0 <= i < |init| ensures init[i] != xs[|xs| - 1] {
          assert init[i] == xs[i];
        }
      }
      assert xs == init + [xs[|xs| - 1]];
    }
  }

  /** Survivors keep the order of their first occurrence in the input. */
  lemma {:induction false} UniqueFirstOccurrenceOrder(xs: seq<string>, i: nat, j: nat)
    requires i < j < |Unique(xs)|
    ensures Unique(xs)[i] in xs && Unique(xs)[j] in xs
    ensures IndexOf(xs, Unique(xs)[i]).value < IndexOf(xs, Unique(xs)[j]).value
  {
    var u := Unique(xs);
    UniqueElements(xs, u[i]);
    UniqueElements(xs, u[j]);
    var init := xs[..|xs| - 1];
    var last := xs[|xs| - 1];
    assert xs == init + [last];
    var ui := Unique(init);
    if j < |ui| {
      assert u[i] == ui[i] && u[j] == ui[j];
      UniqueFirstOccurrenceOrder(init, i, j);
      IndexOfAppend(init, [last], ui[i]);
      IndexOfAppend(init, [last], ui[j]);
    } else {
      assert last !in init && u[j] == last;
      assert u[i] == ui[i];
      UniqueElements(init, ui[i]);
      IndexOfAppend(init, [last], ui[i]);
      assert IndexOf(init, ui[i]).value < |init|;
      assert xs[..|init|] == init;
      assert IndexOf(xs, last).value == |init|;
    }
  }

  /** The loop of readLeaseFile: keeps the first occurrence of each prefix,
      tracking what was seen in a set. */
  method UniquePrefixes(prefixes: seq<string>) returns (unique: seq<string>)
    ensures unique == Unique(prefixes)
    ensures NoDuplicates(unique)
    ensures forall x :: x in unique <==> x in prefixes
    ensures NoDuplicates(prefixes) ==> unique == prefixes
  {
    unique := [];
    var seen: set<string> := {};
    for i := 0 to |prefixes|
      invariant unique == Unique(prefixes[..i])
      invariant forall x :: x in seen <==> x in prefixes[..i]
    {
      var prefix := prefixes[i];
      assert prefixes[..i + 1][..i] == prefixes[..i];
      if prefix in seen {
        continue;
      }
      unique := unique + [prefix];
      seen := seen + {prefix};
    }
    assert prefixes[..|prefixes|] == prefixes;
    UniqueNoDuplicates(prefixes);
    forall x ensures x in unique <==> x in prefixes {
      UniqueElements(prefixes, x);
    }
    if NoDuplicates(prefixes) {
      UniqueOfDistinct(prefixes);
    }
  }

  /** The startup replay of one lease file: its unique prefixes are emitted
      in order, so the interface ends on the prefix whose FIRST occurrence in
      the file comes last, which need not be the file's last prefix. */
  lemma {:induction false} ReplayLease(m: PrefixMap, iface: string, scraped: seq<string>)
    requires |scraped| > 0
    ensures |Unique(scraped)| > 0
    ensures AssignAll(m, iface, Unique(scraped)) == m[iface := Unique(scraped)[|Unique(scraped)| - 1]]
    ensures Unique(scraped)[|Unique(scraped)| - 1] in scraped
    ensures forall q :: q in scraped ==>
      IndexOf(scraped, q).value <= IndexOf(scraped, Unique(scraped)[|Unique(scraped)| - 1]).value
  {
    var u := Unique(scraped);
    UniqueElements(scraped, scraped[0]);
    ReplayKeepsLast(m, iface, u);
    var p := u[|u| - 1];
    UniqueElements(scraped, p);
    forall q | q in scraped
      ensures IndexOf(scraped, q).value <= IndexOf(scraped, p).value
    {
      UniqueElements(scraped, q);
      var i :| 0 <= i < |u| && u[i] == q;
      if i < |u| - 1 {
        UniqueFirstOccurrenceOrder(scraped, i, |u| - 1);
      }
    }
  }

  /** A lease history A, B, A (the delegation moved away and came back)
      replays to B, although A is the file's last lease. */
  lemma ReplayRevisitedPrefix()
    ensures Unique(["2001:db8:a::/56", "2001:db8:b::/56", "2001:db8:a::/56"])
         == ["2001:db8:a::/56", "2001:db8:b::/56"]
    ensures AssignAll(map[], "eth0", Unique(["2001:db8:a::/56", "2001:db8:b::/56", "2001:db8:a::/56"]))
         == map["eth0" := "2001:db8:b::/56"]
    ensures AssignAll(map[], "eth0", Unique(["2001:db8:a::/56", "2001:db8:b::/56", "2001:db8:a::/56"]))
         != map["eth0" := "2001:db8:a::/56"]
  {
    var xs := ["2001:db8:a::/56", "2001:db8:b::/56", "2001:db8:a::/56"];
    var a: string, b: string := "2001:db8:a::/56", "2001:db8:b::/56";
    assert a != b by { assert a[9] != b[9]; }
    assert [a][..0] == [];
    assert Unique([a]) == [a];
    assert [a, b][..1] == [a] && b !in [a];
    assert Unique([a, b]) == [a, b];
    assert xs[..2] == [a, b] && xs[2] in [a, b];
    ReplayKeepsLast(map[], "eth0", Unique(xs));
    assert map["eth0" := "2001:db8:b::/56"]["eth0"] != "2001:db8:a::/56";
  }

  /** De-duplication keeping the LAST occurrence of each prefix, so the
      file's latest lease is emitted last. */
  function UniqueLatest(xs: seq<string>): seq<string>
  {
    if |xs| == 0 then []
    else if xs[0] in xs[1..] then UniqueLatest(xs[1..])
    else [xs[0]] + UniqueLatest(xs[1..])
  }

  /** Nothing is lost, nothing repeats, and the input's last prefix is the
      last one emitted. */
  lemma {:induction false} UniqueLatestProperties(xs: seq<string>)
    ensures forall x :: x in UniqueLatest(xs) <==> x in xs
    ensures NoDuplicates(UniqueLatest(xs))
    ensures |xs| > 0 ==> |UniqueLatest(xs)| > 0 && UniqueLatest(xs)[|UniqueLatest(xs)| - 1] == xs[|xs| - 1]
  {
    if |xs| > 0 {
      var tail := xs[1..];
      UniqueLatestProperties(tail);
      var u := UniqueLatest(tail);
      if xs[0] !in tail {
        forall i, j | 0 <= i < j < |[xs[0]] + u| ensures ([xs[0]] + u)[i] != ([xs[0]] + u)[j] {
          if i == 0 {
            assert ([xs[0]] + u)[j] == u[j - 1];
          }
        }
      }
      if |tail| > 0 {
        assert tail[|tail| - 1] == xs[|xs| - 1];
      }
    }
  }

  /** Replaying the latest-kept prefixes leaves the interface on the file's
      last lease, and changes no other interface. */
  lemma {:induction false} ReplayLatest(m: PrefixMap, iface: string, scraped: seq<string>)
    requires |scraped| > 0
    ensures AssignAll(m, iface, UniqueLatest(scraped)) == m[iface := scraped[|scraped| - 1]]
  {
    UniqueLatestProperties(scraped);
    ReplayKeepsLast(m, iface, UniqueLatest(scraped));
  }
}

=== FILE: reconcile.dfy ===
/** The system updater: projects a desired-state snapshot onto the addresses
    it asks for, diffs two projections, and drives the batch executor with
    the removals first and the additions second. */
module Reconcile {
  import opened Types
  import opened ConfigTree
  import opened Address
  import opened Registry

  /** Source interface -> target interface -> synthesized address. */
  type AddressMap = map<string, map<string, Net>>

  /** No synthesis reachable from the snapshot panics. */
  predicate SafeSnapshot(env: Env, s: Snapshot)
  {
    s.config.Some? && s.knownPrefixes.Some? ==>
      forall src, tgt :: src in s.config.value && src in s.knownPrefixes.value && tgt in s.config.value[src] ==>
        SafeToCalculate(env, tgt, s.config.value[src][tgt], s.knownPrefixes.value[src])
  }

  /** The snapshots the updater can reconcile: ones the daemon publishes
      (see Registry.ConfigFirst) on which no synthesis panics. */
  predicate Reconcilable(env: Env, s: Snapshot)
  {
    ConfigFirst(s) && SafeSnapshot(env, s)
  }

  /** The projection when both slots are present: for every configured
      source with a known prefix, the targets whose synthesis succeeds. */
  function Addresses(env: Env, config: ConfigMap, prefixes: PrefixMap): (a: AddressMap)
    requires SafeSnapshot(env, Snapshot(Some(config), Some(prefixes)))
    ensures a.Keys == config.Keys * prefixes.Keys
    ensures forall src, tgt :: src in a && tgt in config[src] ==>
      (tgt in a[src] <==> CalculateAddress(env, tgt, config[src][tgt], prefixes[src]).Some?)
    ensures forall src, tgt :: src in a && tgt in a[src] ==>
      tgt in config[src] && Some(a[src][tgt]) == CalculateAddress(env, tgt, config[src][tgt], prefixes[src])
  {
    map src | src in config && src in prefixes ::
      map tgt | tgt in config[src] && CalculateAddress(env, tgt, config[src][tgt], prefixes[src]).Some? ::
        CalculateAddress(env, tgt, config[src][tgt], prefixes[src]).value
  }

  /** getAddresses: the empty map while no prefix is known, None (the
      source's nil) when prefixes are known but the config slot is empty. */
  function GetAddresses(env: Env, s: Snapshot): (r: Option<AddressMap>)
    requires SafeSnapshot(env, s)
    ensures s.knownPrefixes.None? ==> r == Some(map[])
    ensures r.None? <==> s.knownPrefixes.Some? && s.config.None?
    ensures ConfigFirst(s) ==> r.Some?
    ensures s.config.Some? && s.knownPrefixes.Some? ==>
      r == Some(Addresses(env, s.config.value, s.knownPrefixes.value))
  {
    match s.knownPrefixes
    case None => Some(map[])
    case Some(prefixes) =>
      match s.config
      case None => None
      case Some(config) => Some(Addresses(env, config, prefixes))
  }

  /** A target whose policy does not select EUI-64 never gets an address,
      whatever the prefix. */
  lemma UnsupportedPolicyNeverAddressed(env: Env, config: ConfigMap, prefixes: PrefixMap, src: string, tgt: string)
    requires SafeSnapshot(env, Snapshot(Some(config), Some(prefixes)))
    requires src in config && tgt in config[src] && !Eui64Selected(config[src][tgt])
    ensures src in prefixes ==> src in Addresses(env, config, prefixes)
    ensures src in Addresses(env, config, prefixes) ==> tgt !in Addresses(env, config, prefixes)[src]
  {
  }

  /** One (source, target, address) triple of a projection. */
  datatype Entry = Entry(source: string, target: string, address: Net)

  /** All triples of a projection. */
  function Flatten(a: AddressMap): (es: set<Entry>)
    ensures forall e :: e in es <==> e.source in a && e.target in a[e.source] && a[e.source][e.target] == e.address
  {
    set src, tgt | src in a && tgt in a[src] :: Entry(src, tgt, a[src][tgt])
  }

  /** getIPBatchCommandsFromAction over `a` (its "new") against `b` (its
      "old"): every pair of `a` whose source is missing from `b`, whose
      target is missing under that source, or whose address differs. */
  function DiffEntries(a: AddressMap, b: AddressMap): set<Entry>
  {
    set src, tgt | src in a && tgt in a[src]
                   && (src !in b || tgt !in b[src] || b[src][tgt] != a[src][tgt])
      :: Entry(src, tgt, a[src][tgt])
  }

  /** The diff is exactly the set difference of the two projections:
      nothing shared is touched, nothing of `a` missing from `b` is skipped. */
  lemma DiffIsDifference(a: AddressMap, b: AddressMap)
    ensures DiffEntries(a, b) == Flatten(a) - Flatten(b)
  {
    forall e | e in Flatten(a) - Flatten(b) ensures e in DiffEntries(a, b) {
      assert e == Entry(e.source, e.target, a[e.source][e.target]);
    }
  }

  /** The triples a snapshot asks for. */
  function Wanted(env: Env, s: Snapshot): set<Entry>
    requires Reconcilable(env, s)
  {
    Flatten(GetAddresses(env, s).value)
  }

  /** getIPBatchRemove: the triples of `prev` that `desired` no longer asks for. */
  function RemoveEntries(env: Env, prev: Snapshot, desired: Snapshot): (r: set<Entry>)
    requires Reconcilable(env, prev) && Reconcilable(env, desired)
    ensures r == Wanted(env, prev) - Wanted(env, desired)
  {
    DiffIsDifference(GetAddresses(env, prev).value, GetAddresses(env, desired).value);
    DiffEntries(GetAddresses(env, prev).value, GetAddresses(env, desired).value)
  }

  /** getIPBatchAdd: the triples of `desired` that `prev` did not ask for. */
  function AddEntries(env: Env, prev: Snapshot, desired: Snapshot): (r: set<Entry>)
    requires Reconcilable(env, prev) && Reconcilable(env, desired)
    ensures r == Wanted(env, desired) - Wanted(env, prev)
  {
    DiffIsDifference(GetAddresses(env, desired).value, GetAddresses(env, prev).value);
    DiffEntries(GetAddresses(env, desired).value, GetAddresses(env, prev).value)
  }

  /** The add batch is the remove batch with the snapshots swapped. */
  lemma AddIsSwappedRemove(env: Env, prev: Snapshot, desired: Snapshot)
    requires Reconcilable(env, prev) && Reconcilable(env, desired)
    ensures AddEntries(env, prev, desired) == RemoveEntries(env, desired, prev)
  {
  }

  /** Withdrawing a source's prefix removes exactly that source from the
      projection; every other source keeps its addresses. */
  lemma PrefixRemovalDropsSource(env: Env, config: ConfigMap, prefixes: PrefixMap, iface: string)
    requires SafeSnapshot(env, Snapshot(Some(config), Some(prefixes)))
    ensures SafeSnapshot(env, Snapshot(Some(config), Some(Remove(prefixes, iface))))
    ensures Addresses(env, config, Remove(prefixes, iface)) == Addresses(env, config, prefixes) - {iface}
  {
    var a := Addresses(env, config, Remove(prefixes, iface));
    var b := Addresses(env, config, prefixes);
    assert a.Keys == b.Keys - {iface};
    forall src | src in a ensures a[src] == b[src] {
      assert a[src].Keys == b[src].Keys;
    }
  }

  /** Assigning a prefix to a source changes the projection at that source
      only. */
  lemma PrefixAssignTouchesOnlySource(env: Env, config: ConfigMap, prefixes: PrefixMap, iface: string, prefix: string)
    requires SafeSnapshot(env, Snapshot(Some(config), Some(prefixes)))
    requires SafeSnapshot(env, Snapshot(Some(config), Some(Assign(prefixes, iface, prefix))))
    ensures Addresses(env, config, Assign(prefixes, iface, prefix)) - {iface} == Addresses(env, config, prefixes) - {iface}
    ensures iface in Addresses(env, config, Assign(prefixes, iface, prefix)) <==> iface in config
  {
    var a := Addresses(env, config, Assign(prefixes, iface, prefix)) - {iface};
    var b := Addresses(env, config, prefixes) - {iface};
    assert a.Keys == b.Keys;
    forall src | src in a ensures a[src] == b[src] {
      assert a[src].Keys == b[src].Keys;
    }
  }

  /** One reconciliation step: the state becomes the new snapshot, and the
      operations are those that turn the applied projection into the new one. */
  datatype StepResult = StepResult(removeOps: set<Entry>, addOps: set<Entry>, next: Snapshot)

  /** The updater as a sequential step (updateKernel without the executor):
      removals are what `applied` asked for and `desired` does not, additions
      the converse; applying them converges, and unchanged triples are left
      alone. */
  function Step(env: Env, applied: Snapshot, desired: Snapshot): (r: StepResult)
    requires Reconcilable(env, applied) && Reconcilable(env, desired)
    ensures r.next == desired
    ensures r.removeOps == Wanted(env, applied) - Wanted(env, desired)
    ensures r.addOps == Wanted(env, desired) - Wanted(env, applied)
    ensures r.removeOps <= Wanted(env, applied) && r.removeOps !! Wanted(env, desired)
    ensures r.addOps <= Wanted(env, desired) && r.addOps !! Wanted(env, applied)
    ensures (Wanted(env, applied) - r.removeOps) + r.addOps == Wanted(env, desired)
  {
    StepResult(RemoveEntries(env, applied, desired), AddEntries(env, applied, desired), desired)
  }

  /** Reconciling a snapshot against itself issues nothing. */
  lemma StepIdempotent(env: Env, s: Snapshot)
    requires Reconcilable(env, s)
    ensures Step(env, s, s).removeOps == {} && Step(env, s, s).addOps == {}
  {
  }

  /** What an `ip` batch line names: an address on a device. The source
      interface of a triple is not part of it. */
  datatype Binding = Binding(dev: string, address: Net)

  /** The device/address pairs a set of triples asks the kernel for. */
  function Bindings(es: set<Entry>): (bs: set<Binding>)
    ensures forall e :: e in es ==> Binding(e.target, e.address) in bs
    ensures forall b :: b in bs ==> exists e :: e in es && b == Binding(e.target, e.address)
  {
    set e | e in es :: Binding(e.target, e.address)
  }

  /** The kernel after `ip -force -batch` runs the delete lines of
      `removeOps` and then the add lines of `addOps`: a failing line (an
      address already present or already absent) leaves the rest running. */
  function Execute(kernel: set<Binding>, removeOps: set<Entry>, addOps: set<Entry>): (k: set<Binding>)
    ensures forall b :: b in k <==> (b in kernel && b !in Bindings(removeOps)) || b in Bindings(addOps)
  {
    (kernel - Bindings(removeOps)) + Bindings(addOps)
  }

  /** As written, the updater can withdraw an address that the new snapshot
      still asks for. Step deletes `applied - wanted` and adds `wanted -
      applied`. Suppose two sources derive the same address on the same
      target and only one of them goes away. The delete line for the
      departed triple removes the binding the surviving triple shares. No add
      line restores it, because the surviving triple did not change. */
  lemma SharedAddressWithdrawn(applied: set<Entry>, wanted: set<Entry>, gone: Entry, kept: Entry)
    requires applied == {gone, kept} && wanted == {kept}
    requires gone != kept && gone.target == kept.target && gone.address == kept.address
    ensures Binding(kept.target, kept.address) in Bindings(wanted)
    ensures Binding(kept.target, kept.address) !in Execute(Bindings(applied), applied - wanted, wanted - applied)
  {
    assert gone in applied - wanted;
    assert wanted - applied == {};
  }

  /** No triple that leaves names a binding that a triple of the new set
      still asks for. */
  predicate NoSharedWithdrawal(w1: set<Entry>, w2: set<Entry>)
  {
    forall gone, kept :: gone in w1 && gone !in w2 && kept in w2 ==>
      Binding(gone.target, gone.address) != Binding(kept.target, kept.address)
  }

  /** The as-written batches run on a kernel holding exactly the old
      bindings leave exactly the new bindings, minus those that a departed
      triple names and no arriving triple names. */
  lemma {:induction false} ExecuteAsWritten(w1: set<Entry>, w2: set<Entry>)
    ensures Execute(Bindings(w1), w1 - w2, w2 - w1) == Bindings(w2) - (Bindings(w1 - w2) - Bindings(w2 - w1))
  {
    var lhs := Execute(Bindings(w1), w1 - w2, w2 - w1);
    var rhs := Bindings(w2) - (Bindings(w1 - w2) - Bindings(w2 - w1));
    forall b | b in lhs ensures b in rhs {
      if b !in Bindings(w2 - w1) {
        var e :| e in w1 && b == Binding(e.target, e.address);
        assert e in w2;
      }
    }
    forall b | b in rhs ensures b in lhs {
      if b !in Bindings(w2 - w1) {
        var e :| e in w2 && b == Binding(e.target, e.address);
        assert e in w1;
      }
    }
  }

  /** The as-written batches never leave a binding the new set does not ask
      for, whatever subset of the old bindings the kernel held. */
  lemma {:induction false} ExecuteSound(kernel: set<Binding>, w1: set<Entry>, w2: set<Entry>)
    requires kernel <= Bindings(w1)
    ensures Execute(kernel, w1 - w2, w2 - w1) <= Bindings(w2)
  {
    forall b | b in Execute(kernel, w1 - w2, w2 - w1) ensures b in Bindings(w2) {
      if b !in Bindings(w2 - w1) {
        var e :| e in w1 && b == Binding(e.target, e.address);
        assert e in w2;
      }
    }
  }

  /** When no departing triple shares its binding with a remaining one, the
      as-written batches take the kernel exactly to the new bindings. */
  lemma ExecuteExact(w1: set<Entry>, w2: set<Entry>)
    requires NoSharedWithdrawal(w1, w2)
    ensures Execute(Bindings(w1), w1 - w2, w2 - w1) == Bindings(w2)
  {
    ExecuteAsWritten(w1, w2);
    forall b | b in Bindings(w2) ensures b !in Bindings(w1 - w2) {
      var kept :| kept in w2 && b == Binding(kept.target, kept.address);
    }
  }

  /** The updater diffing what the kernel sees, device/address pairs. */
  datatype KernelStepResult = KernelStepResult(removeOps: set<Binding>, addOps: set<Binding>, next: Snapshot)

  /** The corrected updater step: a binding is deleted only when no triple of
      the new snapshot still asks for it, and added only when no triple of
      the old one did. */
  function KernelStep(env: Env, applied: Snapshot, desired: Snapshot): (r: KernelStepResult)
    requires Reconcilable(env, applied) && Reconcilable(env, desired)
    ensures r.next == desired
    ensures forall b :: b in r.removeOps <==> b in Bindings(Wanted(env, applied)) && b !in Bindings(Wanted(env, desired))
    ensures forall b :: b in r.addOps <==> b in Bindings(Wanted(env, desired)) && b !in Bindings(Wanted(env, applied))
    ensures (Bindings(Wanted(env, applied)) - r.removeOps) + r.addOps == Bindings(Wanted(env, desired))
  {
    var before, after := Bindings(Wanted(env, applied)), Bindings(Wanted(env, desired));
    KernelStepResult(before - after, after - before, desired)
  }

  /** The corrected step never deletes a binding the new snapshot wants,
      whatever triples share it. */
  lemma KernelStepKeepsShared(env: Env, prev: Snapshot, desired: Snapshot, e: Entry)
    requires Reconcilable(env, prev) && Reconcilable(env, desired)
    requires e in Wanted(env, desired)
    ensures Binding(e.target, e.address) !in KernelStep(env, prev, desired).removeOps
  {
  }

  /** The action of a batch line. */
  datatype Action = Add | Del {
    function Name(): (n: string)
      ensures n == "add" || n == "del"
      ensures ' ' !in n
    {
      if Add? then "add" else "del"
    }
  }

  /** A typed batch line: `address <action> <address> dev <target>`. */
  datatype Command = Command(action: Action, address: Net, dev: string)

  function CommandOf(action: Action, e: Entry): Command
  {
    Command(action, e.address, e.target)
  }

  /** getIPBatchCommand: the text of one batch line. */
  function GetIPBatchCommand(action: string, address: string, dev: string): string
  {
    "address " + action + " " + address + " dev " + dev
  }

  /** The first word of `s` and what follows the space after it. */
  function SplitWord(s: string): Option<(string, string)>
  {
    match IndexOf(s, ' ')
    case None => None
    case Some(i) => Some((s[..i], s[i + 1..]))
  }

  /** Reads a batch line back into its action, address and device. */
  function ParseIPBatchCommand(line: string): Option<(string, string, string)>
  {
    if |line| < 8 || line[..8] != "address " then None
    else match SplitWord(line[8..])
      case None => None
      case Some((action, rest)) =>
        match SplitWord(rest)
        case None => None
        case Some((address, rest')) =>
          if |rest'| < 4 || rest'[..4] != "dev " then None
          else Some((action, address, rest'[4..]))
  }

  lemma SplitWordOf(w: string, rest: string)
    requires ' ' !in w
    ensures SplitWord(w + " " + rest) == Some((w, rest))
  {
    IndexOfSeparator(w, ' ', rest);
    assert w + " " + rest == w + [' '] + rest;
    assert (w + " " + rest)[..|w|] == w;
    assert (w + " " + rest)[|w| + 1..] == rest;
  }

  /** Batch lines are unambiguous: action and address, being single words,
      and the device are recovered from the rendered line. */
  lemma BatchCommandRoundTrip(action: string, address: string, dev: string)
    requires ' ' !in action && ' ' !in address
    ensures ParseIPBatchCommand(GetIPBatchCommand(action, address, dev)) == Some((action, address, dev))
  {
    var line := GetIPBatchCommand(action, address, dev);
    var tail := "dev " + dev;
    var rest := address + " " + tail;
    assert line == "address " + (action + " " + rest);
    assert line[..8] == "address ";
    assert line[8..] == action + " " + rest;
    SplitWordOf(action, rest);
    SplitWordOf(address, tail);
    assert tail[..4] == "dev " && tail[4..] == dev;
  }

  /** The batch line of a typed command; `show` is the prefix's textual
      form (net.IPNet's String). */
  function Render(show: Net -> string, c: Command): string
  {
    GetIPBatchCommand(c.action.Name(), show(c.address), c.dev)
  }

  /** A rendered command reads back as its action's name, its address text
      and its device. */
  lemma RenderRoundTrip(show: Net -> string, c: Command)
    requires ' ' !in show(c.address)
    ensures ParseIPBatchCommand(Render(show, c)) == Some((c.action.Name(), show(c.address), c.dev))
  {
    BatchCommandRoundTrip(c.action.Name(), show(c.address), c.dev);
  }

  /** Two commands with the same line agree on action, address text and
      device, so a batch never merges distinct removals or additions. */
  lemma {:induction false} RenderInjective(show: Net -> string, c1: Command, c2: Command)
    requires ' ' !in show(c1.address) && ' ' !in show(c2.address)
    requires Render(show, c1) == Render(show, c2)
    ensures c1.action == c2.action && show(c1.address) == show(c2.address) && c1.dev == c2.dev
  {
    RenderRoundTrip(show, c1);
    RenderRoundTrip(show, c2);
  }

  /** `order` lists every element of `entries` exactly once. */
  ghost predicate Enumerates(order: seq<Entry>, entries: set<Entry>)
  {
    && |order| == |entries|
    && (forall e :: e in entries <==> e in order)
    && (forall i, j :: 0 <= i < j < |order| ==> order[i] != order[j])
  }

  /** Visits a set in some order, as hashmap Range does; the order is
      unspecified. */
  method Linearize(entries: set<Entry>) returns (order: seq<Entry>)
    ensures Enumerates(order, entries)
  {
    order := [];
    var rest := entries;
    while rest != {}
      invariant forall e :: e in entries <==> e in rest || e in order
      invariant forall e :: e in order ==> e !in rest
      invariant forall i, j :: 0 <= i < j < |order| ==> order[i] != order[j]
      invariant |order| + |rest| == |entries|
      decreases |rest|
    {
      var e :| e in rest;
      order := order + [e];
      rest := rest - {e};
    }
  }

  /** The batch for a visiting order: one line per triple. */
  function Batch(action: Action, order: seq<Entry>): (b: seq<Command>)
    ensures |b| == |order|
    ensures forall i :: 0 <= i < |order| ==> b[i] == Command(action, order[i].address, order[i].target)
    ensures forall c :: c in b ==> c.action == action
  {
    seq(|order|, i requires 0 <= i < |order| => CommandOf(action, order[i]))
  }

  /** runIPBatch as seen by the executor: an empty batch is never submitted. */
  function RunIPBatch(batch: seq<Command>): (submitted: seq<seq<Command>>)
    ensures |batch| == 0 <==> submitted == []
    ensures |batch| > 0 <==> submitted == [batch]
    ensures forall b :: b in submitted ==> |b| > 0
  {
    if |batch| == 0 then [] else [batch]
  }

  /** The executor's side of updateKernel: both batches are rendered from
      the step's sets, in some traversal order, and only non-empty ones are
      submitted, deletions before additions. */
  method SubmitBatches(removeOps: set<Entry>, addOps: set<Entry>)
    returns (removeOrder: seq<Entry>, addOrder: seq<Entry>, submitted: seq<seq<Command>>)
    ensures Enumerates(removeOrder, removeOps) && Enumerates(addOrder, addOps)
    ensures submitted == RunIPBatch(Batch(Del, removeOrder)) + RunIPBatch(Batch(Add, addOrder))
    ensures |submitted| <= 2
    ensures forall b :: b in submitted ==> |b| > 0
    ensures |submitted| == 2 ==> forall c :: c in submitted[0] ==> c.action == Del
    ensures |submitted| == 2 ==> forall c :: c in submitted[1] ==> c.action == Add
    ensures removeOps == {} && addOps == {} <==> submitted == []
  {
    removeOrder := Linearize(removeOps);
    var removeLines := Batch(Del, removeOrder);
    addOrder := Linearize(addOps);
    var addLines := Batch(Add, addOrder);
    var first, second := RunIPBatch(removeLines), RunIPBatch(addLines);
    submitted := first + second;
    assert forall b :: b in submitted ==> b in first || b in second;
    assert |submitted| == 2 ==> submitted[0] == removeLines && submitted[1] == addLines;
  }

  /** updateKernel: computes both batches, submits the removals before the
      additions (each only when non-empty), and moves to the new snapshot
      whatever the executor reports. `submitted` records what the executor
      received, in order. */
  method UpdateKernel(env: Env, prev: Snapshot, desired: Snapshot)
    returns (next: Snapshot, removeOrder: seq<Entry>, addOrder: seq<Entry>, submitted: seq<seq<Command>>)
    requires Reconcilable(env, prev) && Reconcilable(env, desired)
    ensures next == desired
    ensures Enumerates(removeOrder, Wanted(env, prev) - Wanted(env, desired))
    ensures Enumerates(addOrder, Wanted(env, desired) - Wanted(env, prev))
    ensures submitted == RunIPBatch(Batch(Del, removeOrder)) + RunIPBatch(Batch(Add, addOrder))
    ensures forall b :: b in submitted ==> |b| > 0
    ensures |submitted| == 2 ==> forall c :: c in submitted[0] ==> c.action == Del
  {
    var step := Step(env, prev, desired);
    removeOrder, addOrder, submitted := SubmitBatches(step.removeOps, step.addOps);
    next := step.next;
  }
}

=== FILE: registry.dfy ===
/** The two inputs of the reconciler and the join point between them: the
    prefix registry (source interface -> delegated prefix text) and the
    desired-state snapshot with its `config` and `known-prefixes` slots. */
module Registry {
  import opened Types
  import opened ConfigTree

  /** Source interface -> delegated prefix, as received (CIDR text). */
  type PrefixMap = map<string, string>

  /** HandlePrefixAssigned: associate the interface with the prefix,
      replacing any prefix it held. */
  function Assign(m: PrefixMap, iface: string, prefix: string): (r: PrefixMap)
    ensures r.Keys == m.Keys + {iface}
    ensures r[iface] == prefix
    ensures forall k :: k in m && k != iface ==> r[k] == m[k]
  {
    m[iface := prefix]
  }

  /** HandlePrefixRemoved: dissociate the interface; the prefix carried by
      the event is not consulted. */
  function Remove(m: PrefixMap, iface: string): (r: PrefixMap)
    ensures r.Keys == m.Keys - {iface}
    ensures forall k :: k in r ==> r[k] == m[k]
    ensures iface !in m ==> r == m
  {
    m - {iface}
  }

  /** A later assignment for the same interface supersedes an earlier one. */
  lemma AssignOverwrites(m: PrefixMap, iface: string, p: string, q: string)
    ensures Assign(Assign(m, iface, p), iface, q) == Assign(m, iface, q)
  {
  }

  /** Removal is idempotent, and undoes an assignment to a fresh interface. */
  lemma RemoveIdempotent(m: PrefixMap, iface: string, p: string)
    ensures Remove(Remove(m, iface), iface) == Remove(m, iface)
    ensures iface !in m ==> Remove(Assign(m, iface, p), iface) == m
  {
  }

  /** Operations on different interfaces commute. */
  lemma DistinctInterfacesCommute(m: PrefixMap, a: string, b: string, p: string, q: string)
    requires a != b
    ensures Assign(Assign(m, a, p), b, q) == Assign(Assign(m, b, q), a, p)
    ensures Remove(Assign(m, a, p), b) == Assign(Remove(m, b), a, p)
    ensures Remove(Remove(m, a), b) == Remove(Remove(m, b), a)
  {
  }

  /** Assigning each prefix of `ps` to `iface` in turn, as the lease replay
      at startup emits one prefix-assigned event per unique prefix. */
  function AssignAll(m: PrefixMap, iface: string, ps: seq<string>): PrefixMap
  {
    if |ps| == 0 then m else Assign(AssignAll(m, iface, ps[..|ps| - 1]), iface, ps[|ps| - 1])
  }

  /** After a replay the registry keeps the LAST prefix emitted for the
      interface, and no other interface's entry changes. */
  lemma {:induction false} ReplayKeepsLast(m: PrefixMap, iface: string, ps: seq<string>)
    requires |ps| > 0
    ensures AssignAll(m, iface, ps) == m[iface := ps[|ps| - 1]]
  {
    if |ps| > 1 {
      ReplayKeepsLast(m, iface, ps[..|ps| - 1]);
      assert ps[..|ps| - 1][|ps| - 2] == ps[|ps| - 2];
    }
  }

  /** The desired-state composite: each slot absent until its first update. */
  datatype Snapshot = Snapshot(config: Option<ConfigMap>, knownPrefixes: Option<PrefixMap>)

  /** The aggregator's initial value (an empty hashmap). */
  const EmptySnapshot := Snapshot(None, None)

  /** A config publication replaces the `config` slot only. */
  function WithConfig(s: Snapshot, c: ConfigMap): (r: Snapshot)
    ensures r.config == Some(c)
    ensures r.knownPrefixes == s.knownPrefixes
  {
    s.(config := Some(c))
  }

  /** A registry publication replaces the `known-prefixes` slot only. */
  function WithPrefixes(s: Snapshot, p: PrefixMap): (r: Snapshot)
    ensures r.knownPrefixes == Some(p)
    ensures r.config == s.config
  {
    s.(knownPrefixes := Some(p))
  }

  /** The shape every snapshot the daemon publishes has: prefixes are never
      known before the configuration. The source's address projection
      returns nil for a snapshot without it. */
  predicate ConfigFirst(s: Snapshot)
  {
    s.knownPrefixes.Some? ==> s.config.Some?
  }
}

=== FILE: scenarios.dfy ===
/** Worked examples of the reconciliation on concrete inputs: one source
    eth0 delegating to one target eth1 whose MAC is 02:00:00:00:00:01. */
module Scenarios {
  import opened Types
  import opened ConfigTree
  import opened Address
  import opened Registry
  import opened Reconcile
  import opened Daemon

  const Mac1: seq<Byte> := [0x02, 0x00, 0x00, 0x00, 0x00, 0x01]

  /** 2001:db8::/64 */
  const Net0 := Net([0x20, 0x01, 0x0d, 0xb8, 0, 0, 0, 0, 0, 0, 0, 0, 0, 0, 0, 0], 64)
  /** 2001:db8:1::/56 */
  const Net1 := Net([0x20, 0x01, 0x0d, 0xb8, 0, 1, 0, 0, 0, 0, 0, 0, 0, 0, 0, 0], 56)
  /** 2001:db8:2::/56 */
  const Net2 := Net([0x20, 0x01, 0x0d, 0xb8, 0, 2, 0, 0, 0, 0, 0, 0, 0, 0, 0, 0], 56)

  /** The three example prefix texts parse; nothing else does. */
  function ParseExample(s: string): Option<Net>
  {
    if s == "2001:db8::/64" then Some(Net0)
    else if s == "2001:db8:1::/56" then Some(Net1)
    else if s == "2001:db8:2::/56" then Some(Net2)
    else None
  }

  function HardwareExample(t: string): seq<Byte>
  {
    if t == "eth1" then Mac1 else []
  }

  function ExampleEnv(): Env
  {
    Env(ParseExample, HardwareExample)
  }

  function Eui64Policy(sla: bv32): Policy
  {
    map["address-type" := Str("eui64"), "sla-id" := Uint32(sla)]
  }

  function ExampleConfig(sla: bv32): ConfigMap
  {
    map["eth0" := map["eth1" := Eui64Policy(sla)]]
  }

  /** On a prefix the example parses, eth1's synthesis is safe and is
      calculateEUI64 of that network, the sla-id and eth1's MAC. */
  lemma ExampleCalculation(sla: bv32, text: string, n: Net)
    requires ParseExample(text) == Some(n) && |n.ip| == 16 && n.ones <= 64
    ensures SafeToCalculate(ExampleEnv(), "eth1", Eui64Policy(sla), text)
    ensures CalculateAddress(ExampleEnv(), "eth1", Eui64Policy(sla), text)
         == Some(CalculateEUI64(n, Truncate16(sla), Mac1))
  {
    assert ExampleEnv().parseCidr(text) == ParseExample(text);
    assert ExampleEnv().hardwareAddr("eth1") == Mac1;
    assert Eui64Selected(Eui64Policy(sla));
    assert Eui64Policy(sla)["sla-id"] == Uint32(sla);
  }

  /** eth0 -> eth1 with sla-id `sla`, eth0 holding `prefixes`. */
  function ExampleSnapshot(sla: bv32, prefixes: PrefixMap): Snapshot
  {
    Snapshot(Some(ExampleConfig(sla)), Some(prefixes))
  }

  /** 2001:db8:1:1:200:ff:fe00:1/64 */
  const Addr1 := Net([0x20, 0x01, 0x0d, 0xb8, 0, 1, 0, 1, 0x02, 0x00, 0x00, 0xFF, 0xFE, 0x00, 0x00, 0x01], 64)
  /** 2001:db8:2:1:200:ff:fe00:1/64 */
  const Addr2 := Net([0x20, 0x01, 0x0d, 0xb8, 0, 2, 0, 1, 0x02, 0x00, 0x00, 0xFF, 0xFE, 0x00, 0x00, 0x01], 64)

  /** Under a /56 the subnet id fills octet 7 while octet 6 stays the
      network's. */
  lemma Slash56Address(n: Net)
    requires |n.ip| == 16 && n.ones == 56 && n.ip[6] == 0
    ensures CalculateEUI64(n, Truncate16(1), Mac1).ip
         == n.ip[..6] + [0, 1] + [0x02, 0x00, 0x00, 0xFF, 0xFE, 0x00, 0x00, 0x01]
  {
    assert Truncate16(1) == 1;
    assert MaskByte(56, 6) == 0xFF && MaskByte(56, 7) == 0;
    assert Merge(SlaByte(1, 0), 0xFF, 0) == 0;
    assert Merge(SlaByte(1, 1), 0, n.ip[7]) == 1;
  }

  /** The example prefix texts are distinct strings. */
  lemma ExampleTextsDistinct()
    ensures "2001:db8::/64" != "2001:db8:1::/56" && "2001:db8::/64" != "2001:db8:2::/56"
    ensures "2001:db8:1::/56" != "2001:db8:2::/56"
  {
    assert "2001:db8::/64"[9] != "2001:db8:1::/56"[9];
    assert "2001:db8::/64"[9] != "2001:db8:2::/56"[9];
    assert "2001:db8:1::/56"[9] != "2001:db8:2::/56"[9];
  }

  lemma SubnetAddress1()
    ensures SafeToCalculate(ExampleEnv(), "eth1", Eui64Policy(1), "2001:db8:1::/56")
    ensures CalculateAddress(ExampleEnv(), "eth1", Eui64Policy(1), "2001:db8:1::/56") == Some(Addr1)
  {
    ExampleTextsDistinct();
    assert ParseExample("2001:db8:1::/56") == Some(Net1);
    ExampleCalculation(1, "2001:db8:1::/56", Net1);
    Slash56Address(Net1);
    assert Net1.ip[..6] + [0, 1] + [0x02, 0x00, 0x00, 0xFF, 0xFE, 0x00, 0x00, 0x01] == Addr1.ip;
  }

  lemma SubnetAddress2()
    ensures SafeToCalculate(ExampleEnv(), "eth1", Eui64Policy(1), "2001:db8:2::/56")
    ensures CalculateAddress(ExampleEnv(), "eth1", Eui64Policy(1), "2001:db8:2::/56") == Some(Addr2)
  {
    ExampleTextsDistinct();
    assert ParseExample("2001:db8:2::/56") == Some(Net2);
    ExampleCalculation(1, "2001:db8:2::/56", Net2);
    Slash56Address(Net2);
    assert Net2.ip[..6] + [0, 1] + [0x02, 0x00, 0x00, 0xFF, 0xFE, 0x00, 0x00, 0x01] == Addr2.ip;
  }

  lemma AddressesDistinct()
    ensures Entry("eth0", "eth1", Addr1) != Entry("eth0", "eth1", Addr2)
  {
    assert Addr1.ip[5] != Addr2.ip[5];
  }

  lemma ExampleSafe(sla: bv32, prefix: string)
    requires SafeToCalculate(ExampleEnv(), "eth1", Eui64Policy(sla), prefix)
    ensures Reconcilable(ExampleEnv(), ExampleSnapshot(sla, map["eth0" := prefix]))
  {
  }

  lemma ExampleAddresses(sla: bv32, prefix: string, addr: Net)
    requires SafeToCalculate(ExampleEnv(), "eth1", Eui64Policy(sla), prefix)
    requires CalculateAddress(ExampleEnv(), "eth1", Eui64Policy(sla), prefix) == Some(addr)
    ensures SafeSnapshot(ExampleEnv(), ExampleSnapshot(sla, map["eth0" := prefix]))
    ensures Addresses(ExampleEnv(), ExampleConfig(sla), map["eth0" := prefix]) == map["eth0" := map["eth1" := addr]]
  {
    ExampleSafe(sla, prefix);
    var a := Addresses(ExampleEnv(), ExampleConfig(sla), map["eth0" := prefix]);
    assert a.Keys == {"eth0"};
    ExampleInner(sla, prefix, addr);
  }

  lemma ExampleInner(sla: bv32, prefix: string, addr: Net)
    requires SafeToCalculate(ExampleEnv(), "eth1", Eui64Policy(sla), prefix)
    requires CalculateAddress(ExampleEnv(), "eth1", Eui64Policy(sla), prefix) == Some(addr)
    ensures SafeSnapshot(ExampleEnv(), ExampleSnapshot(sla, map["eth0" := prefix]))
    ensures "eth0" in Addresses(ExampleEnv(), ExampleConfig(sla), map["eth0" := prefix])
    ensures Addresses(ExampleEnv(), ExampleConfig(sla), map["eth0" := prefix])["eth0"] == map["eth1" := addr]
  {
    ExampleSafe(sla, prefix);
    var a := Addresses(ExampleEnv(), ExampleConfig(sla), map["eth0" := prefix]);
    assert "eth0" in a;
    assert a["eth0"].Keys == {"eth1"};
  }

  lemma FlattenSingle(src: string, tgt: string, addr: Net)
    ensures Flatten(map[src := map[tgt := addr]]) == {Entry(src, tgt, addr)}
  {
    var f := Flatten(map[src := map[tgt := addr]]);
    assert Entry(src, tgt, addr) in f;
  }

  /** The snapshot in which eth0 holds `prefix` asks for exactly one triple. */
  lemma WantedExample(sla: bv32, prefix: string, addr: Net)
    requires SafeToCalculate(ExampleEnv(), "eth1", Eui64Policy(sla), prefix)
    requires CalculateAddress(ExampleEnv(), "eth1", Eui64Policy(sla), prefix) == Some(addr)
    ensures Reconcilable(ExampleEnv(), ExampleSnapshot(sla, map["eth0" := prefix]))
    ensures Wanted(ExampleEnv(), ExampleSnapshot(sla, map["eth0" := prefix])) == {Entry("eth0", "eth1", addr)}
  {
    ExampleSafe(sla, prefix);
    ExampleAddresses(sla, prefix, addr);
    FlattenSingle("eth0", "eth1", addr);
  }

  /** With no prefix known the same configuration asks for nothing. */
  lemma WantedNothing()
    ensures Reconcilable(ExampleEnv(), ExampleSnapshot(1, map[]))
    ensures Wanted(ExampleEnv(), ExampleSnapshot(1, map[])) == {}
  {
    assert Addresses(ExampleEnv(), ExampleConfig(1), map[]) == map[];
  }

  /** A first delegation adds one address to eth1 and removes nothing. */
  lemma PureAddition()
    ensures Reconcilable(ExampleEnv(), ExampleSnapshot(1, map[]))
    ensures Reconcilable(ExampleEnv(), ExampleSnapshot(1, map["eth0" := "2001:db8:1::/56"]))
    ensures Step(ExampleEnv(), ExampleSnapshot(1, map[]), ExampleSnapshot(1, map["eth0" := "2001:db8:1::/56"])).removeOps == {}
    ensures Step(ExampleEnv(), ExampleSnapshot(1, map[]), ExampleSnapshot(1, map["eth0" := "2001:db8:1::/56"])).addOps
         == {Entry("eth0", "eth1", Addr1)}
  {
    WantedNothing();
    SubnetAddress1();
    WantedExample(1, "2001:db8:1::/56", Addr1);
    StepBetween(ExampleEnv(), ExampleSnapshot(1, map[]), ExampleSnapshot(1, map["eth0" := "2001:db8:1::/56"]),
                {}, {Entry("eth0", "eth1", Addr1)});
  }

  /** Withdrawing it removes exactly that address and adds nothing. */
  lemma PureRemoval()
    ensures Reconcilable(ExampleEnv(), ExampleSnapshot(1, map[]))
    ensures Reconcilable(ExampleEnv(), ExampleSnapshot(1, map["eth0" := "2001:db8:1::/56"]))
    ensures Step(ExampleEnv(), ExampleSnapshot(1, map["eth0" := "2001:db8:1::/56"]), ExampleSnapshot(1, map[])).removeOps
         == {Entry("eth0", "eth1", Addr1)}
    ensures Step(ExampleEnv(), ExampleSnapshot(1, map["eth0" := "2001:db8:1::/56"]), ExampleSnapshot(1, map[])).addOps == {}
  {
    WantedNothing();
    SubnetAddress1();
    WantedExample(1, "2001:db8:1::/56", Addr1);
    StepBetween(ExampleEnv(), ExampleSnapshot(1, map["eth0" := "2001:db8:1::/56"]), ExampleSnapshot(1, map[]),
                {Entry("eth0", "eth1", Addr1)}, {});
  }

  /** The step between two snapshots whose projections are known. */
  lemma StepBetween(env: Env, s1: Snapshot, s2: Snapshot, w1: set<Entry>, w2: set<Entry>)
    requires Reconcilable(env, s1) && Reconcilable(env, s2)
    requires Wanted(env, s1) == w1 && Wanted(env, s2) == w2
    ensures Step(env, s1, s2).removeOps == w1 - w2
    ensures Step(env, s1, s2).addOps == w2 - w1
  {
  }

  lemma SingletonDifference<T>(a: T, b: T)
    requires a != b
    ensures {a} - {b} == {a}
  {
  }

  /** A new prefix for eth0 swaps the old address for the new one. */
  lemma Reassignment()
    ensures Reconcilable(ExampleEnv(), ExampleSnapshot(1, map["eth0" := "2001:db8:1::/56"]))
    ensures Reconcilable(ExampleEnv(), ExampleSnapshot(1, map["eth0" := "2001:db8:2::/56"]))
    ensures Step(ExampleEnv(), ExampleSnapshot(1, map["eth0" := "2001:db8:1::/56"]), ExampleSnapshot(1, map["eth0" := "2001:db8:2::/56"])).removeOps
         == {Entry("eth0", "eth1", Addr1)}
    ensures Step(ExampleEnv(), ExampleSnapshot(1, map["eth0" := "2001:db8:1::/56"]), ExampleSnapshot(1, map["eth0" := "2001:db8:2::/56"])).addOps
         == {Entry("eth0", "eth1", Addr2)}
  {
    SubnetAddress1();
    SubnetAddress2();
    WantedExample(1, "2001:db8:1::/56", Addr1);
    WantedExample(1, "2001:db8:2::/56", Addr2);
    AddressesDistinct();
    SingletonDifference(Entry("eth0", "eth1", Addr1), Entry("eth0", "eth1", Addr2));
    SingletonDifference(Entry("eth0", "eth1", Addr2), Entry("eth0", "eth1", Addr1));
    StepBetween(ExampleEnv(), ExampleSnapshot(1, map["eth0" := "2001:db8:1::/56"]), ExampleSnapshot(1, map["eth0" := "2001:db8:2::/56"]),
                {Entry("eth0", "eth1", Addr1)}, {Entry("eth0", "eth1", Addr2)});
  }

  /** 2001:db8::200:ff:fe00:1/64 */
  const Addr0 := Net([0x20, 0x01, 0x0d, 0xb8, 0, 0, 0, 0, 0x02, 0x00, 0x00, 0xFF, 0xFE, 0x00, 0x00, 0x01], 64)

  const Module := "vyatta-dhcpv6pd-v1"

  /** eth1's target entry under dataplane eth0, leaves module-qualified as in
      the configuration tree. */
  const ExampleTarget := TargetEntry("eth1", [(Module + ":" + "address-type", Str("eui64")), (Module + ":" + "sla-id", Uint32(0))])

  /** A dataplane interface eth0 delegating to eth1, after a bridge whose
      type the daemon does not know. */
  const ExampleTree := Tree([
    IfaceType("vyatta-interfaces-bridge-v1:bridge", [Interface("br0", [ExampleTarget])]),
    IfaceType(DataplaneType, [Interface("eth0", [ExampleTarget])])])

  lemma ExamplePolicy()
    ensures PolicyOf(ExampleTarget.leaves) == Eui64Policy(0)
  {
    assert ':' !in Module;
    StripKeyQualified(Module, "address-type");
    StripKeyQualified(Module, "sla-id");
    var leaves := ExampleTarget.leaves;
    assert leaves[0].0 == Module + ":" + "address-type";
    assert leaves[1].0 == Module + ":" + "sla-id";
    var ps := seq(|leaves|, i requires 0 <= i < |leaves| => (StripKey(leaves[i].0), leaves[i].1));
    assert ps[0] == ("address-type", Str("eui64"));
    assert ps[1] == ("sla-id", Uint32(0));
    assert ps[..1] == [("address-type", Str("eui64"))];
    assert ps[..1][..0] == [];
    assert AssocAll(ps[..1]) == map["address-type" := Str("eui64")];
  }

  lemma ExampleTargets()
    ensures TargetsOf([ExampleTarget]) == map["eth1" := Eui64Policy(0)]
  {
    ExamplePolicy();
    var targets := [ExampleTarget];
    var ps := seq(|targets|, i requires 0 <= i < |targets| => (targets[i].name, PolicyOf(targets[i].leaves)));
    assert ps == [("eth1", Eui64Policy(0))];
    assert ps[..0] == [];
    assert AssocAll(ps) == map[]["eth1" := Eui64Policy(0)];
  }

  lemma ExamplePairs(dp: IfaceType)
    requires dp == IfaceType(DataplaneType, [Interface("eth0", [ExampleTarget])])
    ensures InterfacePairs([dp]) == [("eth0", map["eth1" := Eui64Policy(0)])]
  {
    ExampleTargets();
    assert [dp][..0] == [];
    assert ListPairs(dp.ifaces) == [("eth0", map["eth1" := Eui64Policy(0)])];
  }

  lemma DataplaneOnlyTransform(dp: IfaceType)
    requires dp == IfaceType(DataplaneType, [Interface("eth0", [ExampleTarget])])
    ensures TransformConfig(Tree([dp])) == ExampleConfig(0)
  {
    ExamplePairs(dp);
    var pairs := [("eth0", map["eth1" := Eui64Policy(0)])];
    assert pairs[..0] == [];
    assert AssocAll(pairs) == map[]["eth0" := map["eth1" := Eui64Policy(0)]];
  }

  /** The bridge is dropped; eth0's policy arrives with its keys stripped. */
  lemma ExampleTransform()
    ensures TransformConfig(ExampleTree) == ExampleConfig(0)
  {
    var bridge, dp := ExampleTree.types[0], ExampleTree.types[1];
    calc {
      TransformConfig(ExampleTree);
    == { assert ExampleTree == Tree([] + [bridge] + [dp]); }
      TransformConfig(Tree([] + [bridge] + [dp]));
    == { UnknownTypeDropped([], bridge, [dp]); }
      TransformConfig(Tree([] + [dp]));
    == { assert [] + [dp] == [dp]; DataplaneOnlyTransform(dp); }
      ExampleConfig(0);
    }
  }

  lemma ExampleEnvSafe()
    ensures SafeEnv(ExampleEnv())
  {
  }

  /** 2001:db8::/64 with sla-id 0 gives 2001:db8::200:ff:fe00:1/64: a /64
      keeps octets 6 and 7 of the network, and the MAC is copied unmodified
      around FF FE. */
  /** A target without a hardware address still gets an address on
      2001:db8::/64: 2001:db8::fffe:0:0:0/64. */
  lemma EmptyMacAddress()
    ensures CalculateEUI64(Net0, Truncate16(0), []).ip
         == [0x20, 0x01, 0x0d, 0xb8, 0, 0, 0, 0, 0xFF, 0xFE, 0, 0, 0, 0, 0, 0]
  {
    var r := CalculateEUI64(Net0, Truncate16(0), []);
    assert r.ip[..6] == Net0.ip[..6];
    assert r.ip[6..8] == Net0.ip[6..8];
    assert r.ip[8..] == InterfaceId([]);
    assert r.ip == r.ip[..6] + r.ip[6..8] + r.ip[8..];
  }

  lemma Slash64Address()
    ensures SafeToCalculate(ExampleEnv(), "eth1", Eui64Policy(0), "2001:db8::/64")
    ensures CalculateAddress(ExampleEnv(), "eth1", Eui64Policy(0), "2001:db8::/64") == Some(Addr0)
  {
    ExampleCalculation(0, "2001:db8::/64", Net0);
    var r := CalculateEUI64(Net0, Truncate16(0), Mac1);
    assert r.ip[..6] == Net0.ip[..6];
    assert r.ip[6..8] == Net0.ip[6..8];
    assert r.ip[8..] == InterfaceId(Mac1) == Mac1[..3] + [0xFF, 0xFE] + Mac1[3..];
    assert r.ip == r.ip[..6] + r.ip[6..8] + r.ip[8..];
    assert r.ip == Addr0.ip;
  }

  /** Startup on the example tree wants nothing; the first delegation to
      eth0 publishes the example snapshot. */
  lemma EndToEndSnapshots(upd: Updater)
    ensures SafeEnv(ExampleEnv()) && SafeConfig(TransformConfig(ExampleTree))
    ensures Wanted(ExampleEnv(), Start(ExampleEnv(), upd, ExampleTree).desired) == {}
    ensures Handle(ExampleEnv(), upd, Start(ExampleEnv(), upd, ExampleTree), PrefixAssigned("eth0", "2001:db8::/64")).desired
         == ExampleSnapshot(0, map["eth0" := "2001:db8::/64"])
  {
    ExampleEnvSafe();
    ExampleTransform();
    assert SafeConfig(ExampleConfig(0));
    var st := Start(ExampleEnv(), upd, ExampleTree);
    assert st.prefixes == map[];
  }

  /** From startup with the example configuration, a prefix-assigned event
      for eth0 leaves exactly 2001:db8::200:ff:fe00:1/64 installed on eth1,
      whichever updater runs. */
  lemma EndToEnd(upd: Updater)
    ensures SafeEnv(ExampleEnv()) && SafeConfig(TransformConfig(ExampleTree))
    ensures Handle(ExampleEnv(), upd, Start(ExampleEnv(), upd, ExampleTree), PrefixAssigned("eth0", "2001:db8::/64")).installed
         == {Binding("eth1", Addr0)}
  {
    EndToEndSnapshots(upd);
    var st := Start(ExampleEnv(), upd, ExampleTree);
    var ev := PrefixAssigned("eth0", "2001:db8::/64");
    HandleExact(ExampleEnv(), upd, st, ev);
    Slash64Address();
    WantedExample(0, "2001:db8::/64", Addr0);
    BindingsSingle(Entry("eth0", "eth1", Addr0));
  }

  lemma BindingsSingle(e: Entry)
    ensures Bindings({e}) == {Binding(e.target, e.address)}
  {
  }

  /** Two sources, eth0 and eth2, both delegating to eth1 with sla-id 1. */
  function SharedConfig(): ConfigMap
  {
    map["eth0" := map["eth1" := Eui64Policy(1)], "eth2" := map["eth1" := Eui64Policy(1)]]
  }

  /** Both sources hold 2001:db8:1::/56, so both ask for Addr1 on eth1. */
  const BothHold: PrefixMap := map["eth0" := "2001:db8:1::/56", "eth2" := "2001:db8:1::/56"]

  lemma SharedSafe(p: PrefixMap)
    requires forall src :: src in p ==> p[src] == "2001:db8:1::/56"
    ensures Reconcilable(ExampleEnv(), Snapshot(Some(SharedConfig()), Some(p)))
  {
    SubnetAddress1();
  }

  /** Every source holding 2001:db8:1::/56 asks for Addr1 on eth1. */
  lemma SharedAddressMap(p: PrefixMap)
    requires forall src :: src in p ==> p[src] == "2001:db8:1::/56"
    ensures Reconcilable(ExampleEnv(), Snapshot(Some(SharedConfig()), Some(p)))
    ensures Addresses(ExampleEnv(), SharedConfig(), p).Keys == SharedConfig().Keys * p.Keys
    ensures forall src :: src in Addresses(ExampleEnv(), SharedConfig(), p) ==>
      Addresses(ExampleEnv(), SharedConfig(), p)[src] == map["eth1" := Addr1]
  {
    SharedSafe(p);
    SubnetAddress1();
    var c := SharedConfig();
    var a := Addresses(ExampleEnv(), c, p);
    forall src | src in a ensures a[src] == map["eth1" := Addr1] {
      assert c[src] == map["eth1" := Eui64Policy(1)];
      assert a[src].Keys == {"eth1"};
    }
  }

  /** The triples of a projection whose every source maps eth1 to Addr1. */
  lemma FlattenUniform(a: AddressMap)
    requires forall src :: src in a ==> a[src] == map["eth1" := Addr1]
    ensures forall e :: e in Flatten(a) <==> e.source in a && e.target == "eth1" && e.address == Addr1
  {
  }

  /** With every holder on 2001:db8:1::/56, the snapshot asks for Addr1 on
      eth1 once per configured holder. */
  lemma SharedWanted(p: PrefixMap)
    requires forall src :: src in p ==> p[src] == "2001:db8:1::/56"
    ensures Reconcilable(ExampleEnv(), Snapshot(Some(SharedConfig()), Some(p)))
    ensures forall e :: e in Wanted(ExampleEnv(), Snapshot(Some(SharedConfig()), Some(p))) <==>
      e.source in SharedConfig().Keys * p.Keys && e.target == "eth1" && e.address == Addr1
  {
    SharedAddressMap(p);
    var a := Addresses(ExampleEnv(), SharedConfig(), p);
    FlattenUniform(a);
    assert Wanted(ExampleEnv(), Snapshot(Some(SharedConfig()), Some(p))) == Flatten(a);
  }

  /** The Addr1-on-eth1 triples whose sources are exactly `sources`. */
  lemma TriplesOf(w: set<Entry>, sources: set<string>)
    requires forall e :: e in w <==> e.source in sources && e.target == "eth1" && e.address == Addr1
    ensures sources == {"eth0", "eth2"} ==> w == {Entry("eth0", "eth1", Addr1), Entry("eth2", "eth1", Addr1)}
    ensures sources == {"eth2"} ==> w == {Entry("eth2", "eth1", Addr1)}
  {
    if sources == {"eth0", "eth2"} {
      assert Entry("eth0", "eth1", Addr1) in w && Entry("eth2", "eth1", Addr1) in w;
    }
    if sources == {"eth2"} {
      assert Entry("eth2", "eth1", Addr1) in w;
    }
  }

  lemma SharedAddressesBoth()
    ensures Reconcilable(ExampleEnv(), Snapshot(Some(SharedConfig()), Some(BothHold)))
    ensures Wanted(ExampleEnv(), Snapshot(Some(SharedConfig()), Some(BothHold)))
         == {Entry("eth0", "eth1", Addr1), Entry("eth2", "eth1", Addr1)}
  {
    SharedWanted(BothHold);
    assert SharedConfig().Keys * BothHold.Keys == {"eth0", "eth2"};
    TriplesOf(Wanted(ExampleEnv(), Snapshot(Some(SharedConfig()), Some(BothHold))), {"eth0", "eth2"});
  }

  lemma SharedAddressesOne()
    ensures Remove(BothHold, "eth0") == map["eth2" := "2001:db8:1::/56"]
    ensures Reconcilable(ExampleEnv(), Snapshot(Some(SharedConfig()), Some(Remove(BothHold, "eth0"))))
    ensures Wanted(ExampleEnv(), Snapshot(Some(SharedConfig()), Some(Remove(BothHold, "eth0"))))
         == {Entry("eth2", "eth1", Addr1)}
  {
    var p := Remove(BothHold, "eth0");
    assert p == map["eth2" := "2001:db8:1::/56"];
    SharedWanted(p);
    assert SharedConfig().Keys * p.Keys == {"eth2"};
    TriplesOf(Wanted(ExampleEnv(), Snapshot(Some(SharedConfig()), Some(p))), {"eth2"});
  }

  /** eth0's prefix is withdrawn while eth2 keeps the same one: the updater
      as written deletes Addr1 from eth1 although eth2 still asks for it;
      the corrected step leaves it in place. */
  lemma SharedPrefixWithdrawal()
    ensures Reconcilable(ExampleEnv(), Snapshot(Some(SharedConfig()), Some(BothHold)))
    ensures Reconcilable(ExampleEnv(), Snapshot(Some(SharedConfig()), Some(Remove(BothHold, "eth0"))))
    ensures Binding("eth1", Addr1)
            !in Execute(Bindings(Wanted(ExampleEnv(), Snapshot(Some(SharedConfig()), Some(BothHold)))),
                        Step(ExampleEnv(), Snapshot(Some(SharedConfig()), Some(BothHold)),
                             Snapshot(Some(SharedConfig()), Some(Remove(BothHold, "eth0")))).removeOps,
                        Step(ExampleEnv(), Snapshot(Some(SharedConfig()), Some(BothHold)),
                             Snapshot(Some(SharedConfig()), Some(Remove(BothHold, "eth0")))).addOps)
    ensures Binding("eth1", Addr1) in Bindings(Wanted(ExampleEnv(), Snapshot(Some(SharedConfig()), Some(Remove(BothHold, "eth0")))))
    ensures Binding("eth1", Addr1)
            !in KernelStep(ExampleEnv(), Snapshot(Some(SharedConfig()), Some(BothHold)),
                           Snapshot(Some(SharedConfig()), Some(Remove(BothHold, "eth0")))).removeOps
  {
    SharedAddressesBoth();
    SharedAddressesOne();
    var prev := Snapshot(Some(SharedConfig()), Some(BothHold));
    var desired := Snapshot(Some(SharedConfig()), Some(Remove(BothHold, "eth0")));
    SharedAddressWithdrawn(Wanted(ExampleEnv(), prev), Wanted(ExampleEnv(), desired), Entry("eth0", "eth1", Addr1), Entry("eth2", "eth1", Addr1));
    KernelStepKeepsShared(ExampleEnv(), prev, desired, Entry("eth2", "eth1", Addr1));
  }
}

=== FILE: types.dfy ===
/** Small shared vocabulary: the optional value used wherever the daemon
    returns nil, an empty string or "not found". */
module Types {

  /** `None` stands for Go's nil / "" / not-found results. */
  datatype Option<+T> = None | Some(value: T)

  /** One octet of an address or of a hardware identifier. */
  type Byte = bv8

  /** `n` zero octets. */
  function Zeros(n: nat): (z: seq<Byte>)
    ensures |z| == n
    ensures forall i :: 0 <= i < n ==> z[i] == 0
  {
    seq(n, _ => 0)
  }

  /** The position of the first occurrence of `c` in `s`, if any. */
  function IndexOf<T(==)>(s: seq<T>, c: T): (r: Option<nat>)
    ensures r.None? <==> c !in s
    ensures r.Some? ==> r.value < |s| && s[r.value] == c && c !in s[..r.value]
  {
    if |s| == 0 then None
    else if s[0] == c then Some(0)
    else match IndexOf(s[1..], c)
      case None => None
      case Some(i) => assert s[1..][..i] == s[1..i + 1]; Some(i + 1)
  }

  /** In `m + [c] + k` with `m` free of `c`, the first `c` is the one added. */
  lemma {:induction false} IndexOfSeparator<T>(m: seq<T>, c: T, k: seq<T>)
    requires c !in m
    ensures IndexOf(m + [c] + k, c) == Some(|m|)
  {
    if |m| > 0 {
      assert (m + [c] + k)[1..] == m[1..] + [c] + k;
      IndexOfSeparator(m[1..], c, k);
    }
  }

  /** Appending never moves the first occurrence of an element already present. */
  lemma {:induction false} IndexOfAppend<T>(a: seq<T>, b: seq<T>, c: T)
    requires c in a
    ensures IndexOf(a + b, c) == IndexOf(a, c)
  {
    if a[0] != c {
      assert (a + b)[1..] == a[1..] + b;
      IndexOfAppend(a[1..], b, c);
    }
  }
}
